=== FILE: README.md ===
# Twitter feed filter: classifier, engine and rule-list manager

A Dafny model of the browser extension that hides posts from the Twitter/X
feed. It has three parts.

- The content script's **classifier** decides whether a post should be
  hidden. It checks seven rule types (keywords, video, links, retweets,
  verified, engagement bait, ads), username and followed-author exemptions,
  first-match-wins over the ordered rule list, and the reason text shown on
  the marker.
- The content script's **engine** keeps the books. It hides a post behind a
  marker, re-scans the page with processed-state tracking, removes
  duplicate markers, answers the statistics query and handles the
  `updateFilters` message.
- The popup's **rule-list manager** adds, removes and toggles rules. It also
  parses comma-separated keywords, builds the type labels and the status
  line, and computes the enabled subset it sends to the content script.

The classifier and the engine follow the code as written, including the
two defects listed under Findings: the links rule uses the substring test,
and the marker's reason names phrases from the shorter list. The corrected
definitions (`Classifier.HasLinks`, `Classifier.FilterReason`) stand beside
them, and lemmas relate each pair.

## Modules

- `Optional`: the `Option` type.
- `Strings`: the JavaScript string operations the code uses, written out.
  These are ASCII `toLowerCase`, `includes`, `startsWith`, `trim` over the
  ECMAScript white-space set, `split`, `join` and decimal formatting.
- `Seqs`: the first-hit search the link test runs, the order-preserving
  subsequence relation, and associativity of concatenation.
- `Filters`: the rule record, the seven type tags and their popup labels,
  and the enabled subset.
- `Posts`: the post as the content script sees it, plus the three things it
  extracts from a post: its text, its author handle and its tweet id.
- `Classifier`: the per-type predicates, exemption, `shouldHideTweet` and
  `getFilterReason`.
- `Engine`: the page, `hideTweet`, `filterExistingPosts`,
  `cleanupDuplicateIndicators`, `getStats`, the update handler and start-up.
- `Popup`: the rule-list operations, the status text and the message to
  the content script.
- `Findings`: concrete inputs for the defects listed under Findings.

## How the model works

- **Posts are records.** A post is an immutable record of what the selectors
  read: its text region, its chrome-free text, its whole text, link hrefs,
  user-name links, span texts, structural flags, the processed attribute and
  the filtered class.
- **The page is a flat sequence** of posts, markers and other elements in
  document order. An element's previous and next sibling are its neighbours
  in the sequence.
- **A scan is a single left-to-right pass.** A marker inserted before a post
  does not change the previous sibling of any later post. So each post sees
  the previous sibling it had when `querySelectorAll` took its snapshot.

## Where the code and its description differ

The model follows the code in each case:

- Username exemption compares the extracted handle, which always carries
  a leading "@", with each stored entry ignoring case. It does not strip
  "@" from either side, so an entry stored without "@" never matches
  (`Classifier.ExemptionNeedsAtSign`).
- A rule update does not clear the processed state. Posts an earlier scan
  passed are never re-examined under the new rules
  (`Engine.SettledPageIgnoresNewRules`).
- The ad link check fires on any href that contains "utm_", "promo" or
  "campaign". It needs only one of them, not several tracking parameters.
- The popup's update message carries no exemptions. The content script
  therefore resets them to the defaults on every popup change
  (`Popup.UpdateFromPopup`).

## Model

| member | source | states |
|---|---|---|
| Filters.KindOf | content.js:320-338 | Only the seven known tags are recognised, and each one is recognised as the rule type whose tag it is. |
| Filters.KindOfTag | content.js:321-335 | Each rule type's tag is recognised as that type (round trip). |
| Filters.TypeLabel | popup.js:169-180 | A known type gets its fixed label; an unknown type is returned unchanged. |
| Filters.TypeLabelEchoesOnlyUnknown | popup.js:169-180 | The label equals the type string exactly when the type is unknown, so no known type's label is its own tag. |
| Filters.EnabledFilters | content.js:30 | The enabled subset keeps exactly the enabled rules, each as often as before, in their original order. |
| Filters.EnabledAppend | content.js:30 | Taking the enabled subset distributes over concatenation of rule lists. |
| Filters.EnabledIdempotent | popup.js:213 | Taking the enabled subset of an enabled subset changes nothing. |
| Posts.TweetText | content.js:493-519 | The text region when the post has one, otherwise the text with the interface chrome removed. |
| Posts.FirstHrefIndex | content.js:90 | Picks the first href in document order that contains the fragment, or reports that none does. |
| Posts.TweetId | content.js:88-98 | The id is the first status permalink when one exists; otherwise it is a prefix of the post text, 100 characters long or the whole text if shorter. |
| Posts.ProfileName | content.js:255-262 | A name is produced only for an href of the form "/" + name, where the name is non-empty, has no "/" and is not "i". |
| Posts.ProfileNameOfLink | content.js:256-260 | Every such "/name" href yields exactly that name. |
| Posts.SpanHandle | content.js:268-272 | A span qualifies exactly when its trimmed text starts with "@", is longer than one character and has no space; the handle is the trimmed text. |
| Posts.LinkName | content.js:253-262 | An anchor yields a name exactly when it exists and its href is a profile link. |
| Posts.Username | content.js:244-276 | The handle starts with "@" and comes from a profile link ("@" + name) or from a handle-shaped span; there is none exactly when no candidate link and no span qualifies. |
| Classifier.FirstHit | content.js:884-886 | Returns the first needle in list order that the text contains, or reports that none is contained. |
| Classifier.MatchesKeywords | content.js:341-349 | An empty keyword list never matches; otherwise the rule matches exactly when the lower-cased text contains some lower-cased keyword. |
| Classifier.KeywordCaseIrrelevant | content.js:346-348 | Lower-casing the keyword list first does not change whether a rule matches. |
| Classifier.EmptyKeywordMatchesEverything | content.js:346-348 | A keyword list that contains "" matches every post. |
| Classifier.IsEngagementBait | content.js:387-418 | True exactly when the lower-cased text contains one of the 22 fixed phrases. |
| Seqs.FirstWhere | content.js:362-367 | Returns the first element that passes the test, with none before it passing, or reports that none passes, as a loop that returns at its first hit. |
| Classifier.HasLinksAsWritten | content.js:359-369 | The loop's search for the first external href succeeds exactly when some href contains "http", contains neither "twitter.com" nor "x.com" anywhere, and is not a site path. |
| Classifier.HasLinks | content.js:359-369 | The links rule with the host compared: true exactly when some href contains "http", is not a site path and has a host outside the site. Every post the substring test as written catches, it catches too. |
| Classifier.PlatformHostContainsSiteName | content.js:364 | Every host of the site contains "x.com" or "twitter.com" as a substring. |
| Classifier.ExternalAsWrittenIsExternal | content.js:364 | Every href the substring test accepts as external is external by host too. |
| Classifier.AsWrittenHitIsExternal | content.js:359-369 | A post the as-written link loop accepts has some href the host-comparing loop accepts. |
| Classifier.SiteLinksAreInternal | content.js:364 | An absolute link to twitter.com, x.com or any subdomain of them is never external. |
| Classifier.IsRetweet | content.js:371-377 | A social-context line or a retweet label makes a retweet; without either, the post is a retweet exactly when its text contains "Retweeted". |
| Classifier.RetweetedTextIsRetweet | content.js:371-377 | "Retweeted" anywhere in the text, whatever surrounds it, makes the post a retweet. |
| Classifier.IsAd | content.js:420-491 | A promoted indicator or the `data-promoted` attribute makes an ad, and so does "promoted" in the lower-cased text. A post with neither flag, no spans and no links is an ad exactly when its lower-cased text contains "promoted" or "sponsored tweet". |
| Classifier.PromoLinkIsAd | content.js:472-479 | A link whose href contains "utm_", "promo" or "campaign" makes the post an ad. |
| Classifier.AdLabelSpan | content.js:460-470 | A span whose lower-cased, trimmed text is "promoted", "ad", "sponsored" or "advertisement" makes the post an ad. |
| Classifier.MatchesKind | content.js:321-338 | Each of the seven types maps to its predicate: keywords to the keyword match over the given list, video to the video flag, links to some href passing the substring test as written, retweets to the retweet test, verified to the badge, engagement to the text containing one of the 22 phrases, ads to the ad test. |
| Classifier.MatchesFilter | content.js:320-339 | An unknown type never matches. A keyword rule matches exactly as its keywords do. Every other known type ignores the keyword list and matches exactly as its type's predicate does; for links that is the substring test as written. |
| Classifier.OtherRulesIgnoreText | content.js:320-339 | Only the keyword and engagement rules read the post's text: the other types give the same verdict whatever the text region and the chrome-free text say; the whole-element text, which the retweet and ad tests read, is held fixed. |
| Classifier.IndexIgnoringCase | content.js:225-227 | Finds the first entry equal to the name ignoring case, or reports that none is. |
| Classifier.UsernameExempt | content.js:223-231 | Exempt exactly when a handle was extracted and some entry equals it ignoring case; a post without a handle is never exempt this way. |
| Classifier.IsExempt | content.js:221-242 | A username match exempts, and so does the followed-author hint when that exemption is on. Nothing else exempts: with it off, only a username match does, and the default settings exempt nothing. |
| Classifier.ExemptionNeedsAtSign | content.js:224-227 | Entries stored without a leading "@" never exempt anything. |
| Classifier.ExemptionIgnoresCase | content.js:225-227 | An entry that equals the extracted handle ignoring case exempts the post. |
| Classifier.AlreadyProcessed | content.js:181-199 | A marker right before the post or the filtered class makes it processed; without either, the processed attribute decides. |
| Classifier.FirstMatch | content.js:530-536 | Returns the first rule in list order that matches, with no earlier rule matching, or reports that none matches. |
| Classifier.ShouldHide | content.js:201-219 | Never for an already processed post, never for an exempt post; otherwise exactly when some rule matches. |
| Classifier.FirstMatchWins | content.js:527-536 | When two rules match, the later one is never the one reported. |
| Classifier.ReasonWith | content.js:859-893 | Keyword rule: names the first matching keyword, or gives "". Engagement rule: names the first listed phrase found, or gives the generic text. Video, links, retweet, verified and ad rules: "Contains video content", "Contains external links", "Is a retweet", "From verified user" and "Contains promoted content" respectively. Unknown type: "". |
| Classifier.FilterReasonAsWritten | content.js:876-887 | The engagement reason names a phrase only from the 20-phrase list, and otherwise gives the generic text. |
| Classifier.FilterReason | content.js:876-887 | For a matching engagement rule the reason always names a phrase the text contains. |
| Engine.MarkerFor | content.js:527-538 | The marker carries the name of the first matching rule and the reason `getFilterReason` gives as written, or "Filter" with no reason. |
| Engine.HideTweet | content.js:521-597 | A post that already has the filtered class is left alone. Otherwise: the marker goes right before the post; the post gains the filtered class and processed attribute and nothing else about it changes; the counter grows by exactly one; the rest of the page is unchanged. |
| Engine.HideTweetIdempotent | content.js:522 | Hiding the same post again changes nothing. |
| Engine.Visit | content.js:166-177 | A visit hides at most one post, and hides exactly when the node is a post `shouldHideTweet` accepts; it adds one node per post hidden. |
| Engine.VisitFacts | content.js:166-177 | A processed post and a non-post are left as they are. A post `shouldHideTweet` accepts becomes its marker followed by the post with the filtered class and processed attribute. Any other post only gains the processed attribute. Hence the post ends processed, and markers and filtered classes grow by the number hidden. |
| Engine.ScanNodes | content.js:166-177 | The page grows by exactly one node per post hidden, and no more posts are hidden than there are nodes. |
| Engine.ScanAppend | content.js:166-177 | Scanning two stretches of the page in turn is scanning them together, the second seeing the first's last node as its previous sibling. |
| Engine.ScanCountIsHiddenBefore | content.js:166-177 | The number of posts a scan of the first i nodes hides is the number of those posts `shouldHideTweet` accepts with their own previous sibling. |
| Engine.ScanPlacesNode | content.js:166-177 | Node i ends up shifted by the number of posts hidden before it. It is unchanged if it is not a post or is already processed. If the scan hides it, the marker for it stands right before it and it gains the filtered class and processed attribute. Otherwise it only gains the processed attribute. |
| Engine.ScanPlacesEveryNode | content.js:160-179 | Every node of the page ends up where, and as, the previous row says, and the page grows by exactly the number of posts hidden. |
| Engine.ScanFacts | content.js:160-179 | A scan leaves every post processed. The markers it adds, and the filtered classes it adds, each equal the number of posts it hides. Posts change at most by being marked. |
| Engine.ScanSettledIsNoop | content.js:168-171 | A scan over a page whose posts are all processed changes nothing. |
| Engine.FilterExistingPosts | content.js:160-179 | With no rules nothing changes. Otherwise the counter grows by the number of posts `shouldHideTweet` accepts, each such post is preceded by its marker and gains the filtered class, every other post only gains the processed attribute or stays as it was, and all other nodes stay. The counter also equals the number of markers added and of posts that became filtered, and no adjacent markers appear. |
| Engine.RescanIsIdempotent | content.js:160-179 | A second scan of an unchanged page hides nothing and leaves the counter alone. |
| Engine.SettledPageIgnoresNewRules | content.js:181-199 | Once every post is processed, no change of rules or exemptions hides anything more. |
| Engine.CleanupIndicatorsFrom | content.js:69-86 | The cleanup removes only markers and keeps everything else in order. |
| Engine.CleanupIndicators | content.js:69-86 | The cleanup of the whole page removes only markers and keeps order; on a page without adjacent markers it removes exactly what the reference removal `DedupMarkers` removes. |
| Engine.FirstPerIdKeeps | content.js:74-84 | Keeping the first entry per id drops entries only, and keeps one entry for every id. |
| Engine.FirstPerIdKeepsFirst | content.js:74-84 | Each entry kept is the first entry of its id in the input, never a later one. |
| Engine.DedupMarkers | content.js:69-86 | The reference removal leaves at most one marker per tweet id and removes nothing but markers. |
| Engine.DedupMarkersFromOwned | content.js:69-86 | The markers the reference removal keeps are, per tweet id, the first one in document order. |
| Engine.DedupMarkersKeepsFirst | content.js:74-84 | Every id that had a marker keeps one, it is the first in document order, and every kept marker was there before. |
| Engine.ScanKeepsNoStacks | content.js:160-199 | A scan never places a marker directly after another, because a post with a marker before it counts as processed. |
| Engine.CleanupKeepsNoStacks | content.js:69-86 | Removing markers never creates two adjacent markers. |
| Engine.CleanupAgreesWithoutStacks | content.js:74-84 | On a page without adjacent markers, the cleanup as written removes exactly what the reference removal does. |
| Engine.CleanupLeavesOnePerId | content.js:69-86 | On such a page, after the cleanup at most one marker per tweet id remains, and it is the first in document order. |
| Engine.GetStats | content.js:896-901 | The statistics report the hidden counter and the number of active rules. |
| Engine.HandleUpdate | content.js:55-67 | The rules are replaced. Exemptions are replaced, or reset to the defaults when the message has none. With no rules, only the marker cleanup happens. Otherwise the cleaned page is rescanned: every node of it lands where `Fate` says under the new rules and exemptions, and the counter grows by the number of posts `shouldHideTweet` accepts. The counter never drops, posts are at most marked, and no adjacent markers appear. |
| Engine.Start | content.js:17-53 | Only enabled stored rules are kept, and exemptions default when absent. With no enabled rules the page is untouched and the counter is zero. Otherwise every node lands where `Fate` says, and the counter is the number of posts `shouldHideTweet` accepts, which is also the number of markers the first scan added. |
| Popup.DropEmpty | popup.js:85 | Keeps exactly the non-empty pieces, each as often as before, in order. |
| Strings.SplitAroundTrim | popup.js:85 | Splitting at a non-space separator, the pieces of the text and of its trimmed form agree once each is trimmed. |
| Popup.ParseKeywords | popup.js:85 | The keywords are exactly the non-empty trimmed comma-separated pieces of the field as typed, in order. Every keyword is non-empty, trimmed and free of commas. A blank field gives no keywords, and a field without commas gives its trimmed text. |
| Popup.ParseShownKeywords | popup.js:151 | Parsing the comma-joined keyword line the popup shows gives back the rule's keywords. |
| Popup.ParseKeywordsStable | popup.js:85 | Parsing a parsed and re-joined list changes nothing. |
| Popup.AddFilter | popup.js:69-107 | A blank name is refused with an error and the list unchanged. Otherwise exactly one enabled rule, with the trimmed fields and parsed keywords, is appended at the end, and the content script is notified. |
| Popup.WithoutId | popup.js:118 | Keeps exactly the rules with a different id, each as often as before, in their original order. |
| Popup.RemoveFilter | popup.js:117-123 | Removes exactly the rules with that id, keeps the rest, each as often as before, in order, and notifies. |
| Popup.WithoutAbsentId | popup.js:118 | Removing an id no rule has leaves the list unchanged. |
| Popup.RemoveIdempotent | popup.js:117-123 | Removing the same id twice is the same as removing it once. |
| Popup.AddThenRemove | popup.js:81-118 | Adding a rule with a fresh id and then removing that id gives the original list. |
| Popup.FindId | popup.js:126 | Finds the first rule with that id, or reports that no rule has it. |
| Popup.ToggleFilter | popup.js:125-134 | An unknown id changes nothing. Otherwise only the first rule with that id has its enabled flag flipped, and the status names the new state. |
| Popup.ToggleTwice | popup.js:125-134 | Toggling the same id twice restores the list. |
| Popup.ContentScriptMessage | popup.js:207-219 | A message is sent exactly when the tab's URL contains "twitter.com" or "x.com". It carries exactly the enabled rules, in order, and no exemptions. |
| Popup.GetFiltersResponse | popup.js:252-256 | The reply holds exactly the enabled rules, each as often as in the list, in order. |
| Popup.UpdateFromPopup | popup.js:207-219 | After the content script handles the popup's message, its rules are the popup's enabled rules, its active count equals the popup's, and its exemptions are the defaults. |
| Popup.ActiveCount | popup.js:222 | The number of enabled rules never exceeds the number of rules. |
| Popup.StatusText | popup.js:221-231 | An empty list shows the greeting. |
| Popup.StatusTextReadsBack | popup.js:221-231 | A non-empty list's status has five words: the enabled count, "of", the total, "filters", "active". Both numbers read back, have no leading zeros, and the first never exceeds the second. |
| Findings.LookalikeFailsSubstringTest | content.js:364 | The substring test finds "x.com" inside a netflix.com link. |
| Findings.LookalikePassesHostTest | content.js:364 | The same link's host is not the site's, so it is external. |
| Findings.LookalikeHostIsExternal | content.js:359-369 | A post whose only link goes to netflix.com is missed by the links test as written, so a links rule does not match it, and it is caught by the corrected test. |
| Findings.SaidMissesAsWrittenPhrases | content.js:877-883 | "i said what i said" contains none of the 20 phrases the reason text names. |
| Findings.SaidHitsLastPhrase | content.js:390-413 | "i said what i said" contains the last detection phrase and none of the 21 before it. |
| Findings.UnnamedEngagementPhrase | content.js:876-887 | For a post reading "i said what i said", an engagement rule matches. The reason as written, and so the marker, is the generic text; the corrected reason names the phrase. |
| Findings.StackedMarkersSurvive | content.js:74-84 | On a page with two markers before one post, the cleanup keeps both and the reference removal keeps one; the no-adjacent-markers hypothesis cannot be dropped. |

## Left out

- Browser storage, runtime and tab messaging are parameters. The stored rule list, stored exemptions, the active tab's URL and the incoming message are all inputs.
- Observing the page is left out: the mutation observer, the 200 ms debounce and the 10-second interval. Each scan is one call of `Engine.FilterExistingPosts`.
- The rule id and creation time come from the clock, so they are parameters of `Popup.AddFilter`.
- Theme detection, the injected stylesheet, the overlay's HTML, `escapeHtml`, the Show/Hide buttons and the animation are left out. They are presentation only. A marker is modelled by the two values it displays.
- Popup rendering and form handling are left out, except the keyword line `Popup.ParseShownKeywords` reads back.
- Popup start-up (loading the saved list) and saving are left out. The list is the popup operations' input.
- Classifier.IsAd: three ad checks read indicator regions and the enclosing cell, and the `data-promoted` check reads an attribute. These are booleans on the post record. The text, span and link checks are modelled.
- The followed-author heuristic is an opaque boolean on the post, because it reads ancestor text.
- The video and verified checks are selector lookups, recorded as booleans on the post.
- The double instantiation of the content script at the end of the file is left out, because it concerns page loading.
- Lower-casing is ASCII only. JavaScript's full Unicode `toLowerCase` mapping is not modelled.
- An unknown type's label in the popup is the type string. Inherited object keys such as "constructor" would give other results in JavaScript; they are not modelled.
- A post is assumed to sit directly in the page sequence. Nested containers, where a post's element sibling is not the next post, are not modelled.
- Posts.TweetId: strings are sequences of code points, so the 100-character prefix counts code points. JavaScript's `substring(0, 100)` counts UTF-16 code units, and a cut inside a surrogate pair leaves a lone surrogate that a Dafny character cannot hold; texts with characters outside the Basic Multilingual Plane can give a different fallback id.
- Posts.Username: the contract says which candidate the handle comes from. It does not say that this is the first qualifying candidate in selector order, though the function picks that one.
- Popup.ActiveCount: its contract bounds the count only. That the count is the number of enabled rules is stated through `Filters.EnabledFilters` and `Popup.StatusTextReadsBack`.
- Engine.GetStats: it restates the counter and rule count. Its relation to the popup's count is stated by `Popup.UpdateFromPopup`.

## Findings

| source | as written | input that shows it | evidently intended | confidence | as-written member | corrected member |
|---|---|---|---|---|---|---|
| content.js:364 | An href counts as internal when it contains "twitter.com" or "x.com" anywhere. | "https://netflix.com/title": "netflix.com" contains "x.com". | Compare the link's host with the site's hosts. | not executed | Classifier.HasLinksAsWritten (shown by Findings.LookalikeHostIsExternal) | Classifier.HasLinks |
| content.js:876-887 | The reason text names phrases from a 20-entry list; detection uses 22 entries. | A post reading "i said what i said" under an engagement rule. | Name the detected phrase, from the same list detection uses. | not executed | Classifier.FilterReasonAsWritten (shown by Findings.UnnamedEngagementPhrase) | Classifier.FilterReason |

=== FILE: classifier.dfy ===
/** The post classifier of the content script: one predicate per rule type,
    the exemption test, first-match-wins over the ordered rule list, and the
    human-readable reason shown on a marker. */
module Classifier {
  import opened Optional
  import opened Seqs
  import opened Strings
  import opened Filters
  import opened Posts

  /** The exemption settings: exempt posts from followed authors (best
      effort), and exempt posts whose author is in `usernames`. */
  datatype Exceptions = Exceptions(followingOnly: bool, usernames: seq<string>)

  /** The settings used when none are stored, or an update carries none. */
  const DefaultExceptions := Exceptions(false, [])

  /** Index of the first needle that `text` includes. */
  function FirstHit(text: string, needles: seq<string>): (r: Option<nat>)
    ensures r.Some? ==> r.value < |needles| && Contains(text, needles[r.value])
    ensures r.Some? ==> forall j | 0 <= j < r.value :: !Contains(text, needles[j])
    ensures r.None? ==> forall j | 0 <= j < |needles| :: !Contains(text, needles[j])
    decreases |needles|
  {
    if |needles| == 0 then None
    else if Contains(text, needles[0]) then Some(0)
    else match FirstHit(text, needles[1..])
      case Some(i) => Some(i + 1)
      case None => None
  }

  /** Every keyword lower-cased, in the same order. */
  function LowerAll(words: seq<string>): (r: seq<string>)
    ensures |r| == |words|
    ensures forall i | 0 <= i < |words| :: r[i] == Lower(words[i])
  {
    seq(|words|, i requires 0 <= i < |words| => Lower(words[i]))
  }

  /** The lower-cased text the keyword and engagement rules search. */
  function SearchText(p: Post): string {
    Lower(TweetText(p))
  }

  /* ------------------------------------------------------------ keywords */

  /** `matchesKeywords`: a keyword rule matches when the lower-cased post
      text includes some lower-cased keyword; with no keywords it never
      matches. */
  function MatchesKeywords(p: Post, keywords: seq<string>): (r: bool)
    ensures |keywords| == 0 ==> !r
    ensures r <==> exists i | 0 <= i < |keywords| :: Contains(SearchText(p), Lower(keywords[i]))
  {
    FirstHit(SearchText(p), LowerAll(keywords)).Some?
  }

  /** Keyword case does not matter: lower-casing the keyword list first
      matches the same posts. */
  lemma KeywordCaseIrrelevant(p: Post, keywords: seq<string>)
    ensures MatchesKeywords(p, LowerAll(keywords)) == MatchesKeywords(p, keywords)
  {
    forall i | 0 <= i < |keywords|
      ensures Lower(LowerAll(keywords)[i]) == Lower(keywords[i])
    {
      LowerIsLower(keywords[i]);
    }
  }

  /** The content script does not drop empty keywords, and every text
      includes the empty string: a keyword list holding "" matches every
      post. */
  lemma EmptyKeywordMatchesEverything(p: Post, keywords: seq<string>)
    requires "" in keywords
    ensures MatchesKeywords(p, keywords)
  {
    var i :| 0 <= i < |keywords| && keywords[i] == "";
    assert Lower(keywords[i]) == "";
    ContainsEmpty(SearchText(p));
  }

  /* ---------------------------------------------------------- engagement */

  /** The phrases `isEngagementBait` looks for, all lower case. */
  const EngagementPatterns: seq<string> := [
    "like if you", "retweet if", "rt if", "agree if", "comment if",
    "share if", "follow if", "like this if", "retweet this if", "say yes if",
    "type yes if", "drop a", "drop your", "who else", "am i the only one",
    "unpopular opinion", "controversial take", "change my mind",
    "prove me wrong", "this will probably get me cancelled", "hot take",
    "i said what i said"]

  /** `isEngagementBait`: the lower-cased post text includes one of the fixed
      phrases. */
  function IsEngagementBait(p: Post): (r: bool)
    ensures r <==> exists i | 0 <= i < |EngagementPatterns| :: Contains(SearchText(p), EngagementPatterns[i])
  {
    FirstHit(SearchText(p), EngagementPatterns).Some?
  }

  /* --------------------------------------------------------------- links */

  /** The test `hasLinks` applies to one href: it contains "http", contains
      neither "twitter.com" nor "x.com" anywhere, and is not a site path. */
  predicate IsExternalAsWritten(href: string) {
    && Contains(href, "http")
    && !Contains(href, "twitter.com")
    && !Contains(href, "x.com")
    && !StartsWith(href, "/")
  }

  /** `hasLinks` as written: the loop over the links returns true at the
      first href that passes the substring test, so the post has links
      exactly when some href passes it. */
  function HasLinksAsWritten(p: Post): (r: bool)
    ensures r <==> exists i | 0 <= i < |p.hrefs| :: IsExternalAsWritten(p.hrefs[i])
  {
    FirstWhere(p.hrefs, IsExternalAsWritten).Some?
  }

  /** Characters that end the host part of a URL. */
  predicate IsHostEnd(c: char) {
    c == '/' || c == '?' || c == '#' || c == ':'
  }

  /** No character of `s` ends a host. */
  predicate NoHostEnd(s: string) {
    '/' !in s && '?' !in s && '#' !in s && ':' !in s
  }

  /** The longest prefix of `rest` before the first host terminator. */
  function HostPart(rest: string): (r: string)
    ensures |r| <= |rest| && r == rest[..|r|]
    ensures NoHostEnd(r)
    ensures |r| == |rest| || IsHostEnd(rest[|r|])
    decreases |rest|
  {
    if |rest| == 0 || IsHostEnd(rest[0]) then ""
    else
      var tail := HostPart(rest[1..]);
      assert ([rest[0]] + tail)[1..] == tail;
      [rest[0]] + tail
  }

  /** A host name followed by a terminator (or nothing) is read back whole. */
  lemma {:induction false} HostPartOf(host: string, rest: string)
    requires NoHostEnd(host)
    requires |rest| == 0 || IsHostEnd(rest[0])
    ensures HostPart(host + rest) == host
    decreases |host|
  {
    if |host| == 0 {
      assert host + rest == rest;
    } else {
      assert (host + rest)[1..] == host[1..] + rest;
      HostPartOf(host[1..], rest);
    }
  }

  /** The host of an absolute http(s) URL; "" for anything else. */
  function HostOf(href: string): (r: string)
    ensures |r| > 0 ==> exists i :: OccursAt(href, r, i)
  {
    if StartsWith(href, "https://") then
      var r := HostPart(href[8..]);
      assert OccursAt(href, r, 8) by {
        assert href[8..][..|r|] == href[8..8 + |r|];
      }
      r
    else if StartsWith(href, "http://") then
      var r := HostPart(href[7..]);
      assert OccursAt(href, r, 7) by {
        assert href[7..][..|r|] == href[7..7 + |r|];
      }
      r
    else ""
  }

  /** Hosts that belong to the site itself. */
  predicate IsPlatformHost(host: string) {
    || host == "twitter.com" || host == "x.com"
    || EndsWith(host, ".twitter.com") || EndsWith(host, ".x.com")
  }

  /** The external-link test with the host compared instead of the whole
      href: it contains "http", is not a site path, and its host is not the
      site's own. */
  predicate IsExternalHref(href: string) {
    && Contains(href, "http")
    && !StartsWith(href, "/")
    && !IsPlatformHost(HostOf(href))
  }

  /** `hasLinks` with the host comparison: the same loop, returning true at
      the first href that points off the site. The host comparison only
      stops discarding links: every post the substring test catches is
      caught by it too. */
  function HasLinks(p: Post): (r: bool)
    ensures r <==> exists i | 0 <= i < |p.hrefs| :: IsExternalHref(p.hrefs[i])
    ensures HasLinksAsWritten(p) ==> r
  {
    AsWrittenHitIsExternal(p);
    FirstWhere(p.hrefs, IsExternalHref).Some?
  }

  /** An href the substring test accepts is one the host test accepts. */
  lemma AsWrittenHitIsExternal(p: Post)
    ensures HasLinksAsWritten(p) ==> exists i | 0 <= i < |p.hrefs| :: IsExternalHref(p.hrefs[i])
  {
    if HasLinksAsWritten(p) {
      var i :| 0 <= i < |p.hrefs| && IsExternalAsWritten(p.hrefs[i]);
      ExternalAsWrittenIsExternal(p.hrefs[i]);
    }
  }

  /** A site host contains "x.com" or "twitter.com" as a substring. */
  lemma PlatformHostContainsSiteName(host: string)
    requires IsPlatformHost(host)
    ensures Contains(host, "x.com") || Contains(host, "twitter.com")
  {
    if host == "twitter.com" || host == "x.com" {
      ContainsSelf(host);
    } else if EndsWith(host, ".twitter.com") {
      ContainsSuffix(host, |host| - 11);
    } else {
      ContainsSuffix(host, |host| - 5);
    }
  }

  /** Every href the substring test calls external is external by host too:
      the host comparison only stops discarding links. */
  lemma ExternalAsWrittenIsExternal(href: string)
    requires IsExternalAsWritten(href)
    ensures IsExternalHref(href)
  {
    var host := HostOf(href);
    if IsPlatformHost(host) {
      PlatformHostContainsSiteName(host);
      var i :| OccursAt(href, host, i);
      ContainsIffOccurs(href, host);
      if Contains(host, "x.com") {
        ContainsTrans(href, host, "x.com");
      } else {
        ContainsTrans(href, host, "twitter.com");
      }
      assert false;
    }
  }

  /** The host of "https://" + host + rest is `host` when `rest` starts at a
      host terminator. */
  lemma HostOfHttps(host: string, rest: string)
    requires NoHostEnd(host)
    requires |rest| == 0 || IsHostEnd(rest[0])
    ensures HostOf("https://" + host + rest) == host
  {
    var href := "https://" + host + rest;
    assert href[..8] == "https://";
    assert href[8..] == host + rest;
    HostPartOf(host, rest);
  }

  /** Links to the site's own hosts, or any of their subdomains, are never
      external, whatever follows the host. */
  lemma SiteLinksAreInternal(host: string, rest: string)
    requires IsPlatformHost(host) && NoHostEnd(host)
    requires |rest| == 0 || IsHostEnd(rest[0])
    ensures !IsExternalHref("https://" + host + rest)
  {
    HostOfHttps(host, rest);
  }

  /* ------------------------------------------------- structural matchers */

  /** `isRetweet`: a social-context region, the literal "Retweeted" in the
      post's text, or a Retweet aria-label. */
  function IsRetweet(p: Post): (r: bool)
    ensures p.hasSocialContext || p.hasRetweetLabel ==> r
    ensures !p.hasSocialContext && !p.hasRetweetLabel ==> (r <==> Contains(p.textContent, "Retweeted"))
  {
    p.hasSocialContext || Contains(p.textContent, "Retweeted") || p.hasRetweetLabel
  }

  /** "Retweeted" anywhere in the post's text makes it a retweet, whatever
      surrounds it. */
  lemma RetweetedTextIsRetweet(p: Post, before: string, after: string)
    ensures IsRetweet(p.(textContent := before + "Retweeted" + after))
  {
    var t := before + "Retweeted" + after;
    assert t[|before|..|before| + 9] == "Retweeted";
    assert OccursAt(t, "Retweeted", |before|);
    ContainsIffOccurs(t, "Retweeted");
  }

  /** Standalone labels that mark a post as an ad. */
  const AdLabels: seq<string> := ["promoted", "ad", "sponsored", "advertisement"]

  /** Substrings of a link that mark it as promotional. */
  const PromoLinkMarkers: seq<string> := ["utm_", "promo", "campaign"]

  /** `isAd`: the checks over the post's own text, spans, links and
      `data-promoted` attribute, plus the checks that read indicator regions
      and the enclosing cell, which arrive as `promotedContext`. */
  function IsAd(p: Post): (r: bool)
    ensures p.promotedContext || p.dataPromoted ==> r
    ensures Contains(Lower(p.textContent), "promoted") ==> r
    ensures !p.promotedContext && !p.dataPromoted && |p.spanTexts| == 0 && |p.hrefs| == 0 ==>
      (r <==> Contains(Lower(p.textContent), "promoted") || Contains(Lower(p.textContent), "sponsored tweet"))
  {
    || p.promotedContext
    || Contains(Lower(p.textContent), "promoted")
    || Contains(Lower(p.textContent), "sponsored tweet")
    || p.dataPromoted
    || (exists j | 0 <= j < |p.spanTexts| :: Trim(Lower(p.spanTexts[j])) in AdLabels)
    || (exists j | 0 <= j < |p.hrefs| :: FirstHit(p.hrefs[j], PromoLinkMarkers).Some?)
  }

  /** A link whose href includes "utm_", "promo" or "campaign" marks the
      post as an ad. */
  lemma PromoLinkIsAd(p: Post, j: nat, marker: nat)
    requires j < |p.hrefs| && marker < |PromoLinkMarkers|
    requires Contains(p.hrefs[j], PromoLinkMarkers[marker])
    ensures IsAd(p)
  {
    assert FirstHit(p.hrefs[j], PromoLinkMarkers).Some?;
  }

  /** A span whose text, trimmed, is one of the ad labels in any case marks
      the post as an ad, whichever order the lower-casing and trimming are
      done in. */
  lemma AdLabelSpan(p: Post, j: nat)
    requires j < |p.spanTexts|
    requires Lower(Trim(p.spanTexts[j])) in AdLabels
    ensures IsAd(p)
  {
    TrimLower(p.spanTexts[j]);
  }

  /** The predicate of one known rule type. */
  function MatchesKind(p: Post, k: Kind, keywords: seq<string>): (r: bool)
    ensures k == Keywords ==> r == MatchesKeywords(p, keywords)
    ensures k == Video ==> r == p.hasVideo
    ensures k == Links ==> (r <==> exists i | 0 <= i < |p.hrefs| :: IsExternalAsWritten(p.hrefs[i]))
    ensures k == Retweets ==> r == IsRetweet(p)
    ensures k == Verified ==> r == p.hasVerifiedBadge
    ensures k == Ads ==> r == IsAd(p)
    ensures k == Engagement ==> (r <==> exists i | 0 <= i < |EngagementPatterns| :: Contains(SearchText(p), EngagementPatterns[i]))
  {
    match k
    case Keywords => MatchesKeywords(p, keywords)
    case Video => p.hasVideo
    case Links => HasLinksAsWritten(p)
    case Retweets => IsRetweet(p)
    case Verified => p.hasVerifiedBadge
    case Engagement => IsEngagementBait(p)
    case Ads => IsAd(p)
  }

  /** `matchesFilter`: a rule of an unknown type never matches; a rule of a
      known type matches when its type's predicate holds, and only a keyword
      rule looks at its keyword list. */
  function MatchesFilter(p: Post, f: Filter): (r: bool)
    ensures KindOf(f.filterType).None? ==> !r
    ensures KindOf(f.filterType) == Some(Keywords) ==> (r <==> MatchesKeywords(p, f.keywords))
    ensures KindOf(f.filterType).Some? && KindOf(f.filterType) != Some(Keywords) ==>
      r == MatchesKind(p, KindOf(f.filterType).value, [])
  {
    match KindOf(f.filterType)
    case Some(k) => MatchesKind(p, k, f.keywords)
    case None => false
  }

  /** Only the keyword and engagement rules read the post's text: every
      other rule gives the same answer whatever the text region and the
      stripped text say. */
  lemma OtherRulesIgnoreText(p: Post, k: Kind, keywords: seq<string>, text: Option<string>, full: string)
    requires k != Keywords && k != Engagement
    ensures MatchesKind(p.(tweetText := text, fullText := full), k, keywords) == MatchesKind(p, k, keywords)
  {
  }

  /* ----------------------------------------------------------- exemption */

  /** Index of the first name equal to `name` ignoring case. */
  function IndexIgnoringCase(names: seq<string>, name: string): (r: Option<nat>)
    ensures r.Some? ==> r.value < |names| && EqualsIgnoreCase(names[r.value], name)
    ensures r.Some? ==> forall j | 0 <= j < r.value :: !EqualsIgnoreCase(names[j], name)
    ensures r.None? ==> forall j | 0 <= j < |names| :: !EqualsIgnoreCase(names[j], name)
    decreases |names|
  {
    if |names| == 0 then None
    else if EqualsIgnoreCase(names[0], name) then Some(0)
    else match IndexIgnoringCase(names[1..], name)
      case Some(i) => Some(i + 1)
      case None => None
  }

  /** The username part of `isExemptFromFiltering`: the post's extracted
      author handle equals some configured name, ignoring case. A post
      without an extractable handle is never exempt this way. */
  function UsernameExempt(exc: Exceptions, p: Post): (r: bool)
    ensures r <==> (Username(p).Some?
      && exists i | 0 <= i < |exc.usernames| :: EqualsIgnoreCase(exc.usernames[i], Username(p).value))
  {
    && |exc.usernames| > 0
    && match Username(p)
      case Some(u) => IndexIgnoringCase(exc.usernames, u).Some?
      case None => false
  }

  /** `isExemptFromFiltering`: exempt by username, or by the followed-author
      heuristic when that exemption is switched on. */
  function IsExempt(exc: Exceptions, p: Post): (r: bool)
    ensures !exc.followingOnly && |exc.usernames| == 0 ==> !r
    ensures r ==> UsernameExempt(exc, p) || p.followedHint
    ensures UsernameExempt(exc, p) ==> r
    ensures exc.followingOnly && p.followedHint ==> r
    ensures !exc.followingOnly ==> (r <==> UsernameExempt(exc, p))
  {
    UsernameExempt(exc, p) || (exc.followingOnly && p.followedHint)
  }

  /** The comparison does not strip "@": extracted handles always start with
      "@", so configured names written without it never exempt anyone. */
  lemma ExemptionNeedsAtSign(exc: Exceptions, p: Post)
    requires forall i | 0 <= i < |exc.usernames| :: !StartsWith(exc.usernames[i], "@")
    ensures !UsernameExempt(exc, p)
  {
    if Username(p).Some? {
      var u := Username(p).value;
      forall i | 0 <= i < |exc.usernames|
        ensures !EqualsIgnoreCase(exc.usernames[i], u)
      {
        var name := exc.usernames[i];
        assert u[..1] == "@";
        if |name| > 0 {
          assert Lower(u)[0] == '@';
          assert Lower(name)[0] != '@';
        } else {
          assert |Lower(name)| != |Lower(u)|;
        }
      }
    }
  }

  /** The comparison ignores case on both sides. */
  lemma ExemptionIgnoresCase(name: string, p: Post)
    requires Username(p).Some?
    requires Lower(name) == Lower(Username(p).value)
    ensures UsernameExempt(Exceptions(false, [name]), p)
    ensures IsExempt(Exceptions(false, [name]), p)
  {
    assert EqualsIgnoreCase([name][0], Username(p).value);
  }

  /* ------------------------------------------------------ classification */

  /** Index of the first rule in list order that matches the post. */
  function FirstMatch(filters: seq<Filter>, p: Post): (r: Option<nat>)
    ensures r.Some? ==> r.value < |filters| && MatchesFilter(p, filters[r.value])
    ensures r.Some? ==> forall j | 0 <= j < r.value :: !MatchesFilter(p, filters[j])
    ensures r.None? ==> forall j | 0 <= j < |filters| :: !MatchesFilter(p, filters[j])
    decreases |filters|
  {
    if |filters| == 0 then None
    else if MatchesFilter(p, filters[0]) then Some(0)
    else match FirstMatch(filters[1..], p)
      case Some(i) => Some(i + 1)
      case None => None
  }

  /** `isTweetAlreadyProcessed`: the post carries the processed attribute,
      or a marker sits right before it, or it carries the filtered class. */
  function AlreadyProcessed(p: Post, markerBefore: bool): (r: bool)
    ensures markerBefore || p.filtered ==> r
    ensures !markerBefore && !p.filtered ==> (r <==> p.processed)
  {
    p.processed || markerBefore || p.filtered
  }

  /** `shouldHideTweet`: never for an already processed post, never for an
      exempt one whatever the rules say; otherwise exactly when some rule in
      the list matches. */
  function ShouldHide(exc: Exceptions, filters: seq<Filter>, p: Post, markerBefore: bool): (r: bool)
    ensures AlreadyProcessed(p, markerBefore) ==> !r
    ensures IsExempt(exc, p) ==> !r
    ensures !AlreadyProcessed(p, markerBefore) && !IsExempt(exc, p) ==>
      (r <==> exists i | 0 <= i < |filters| :: MatchesFilter(p, filters[i]))
  {
    if AlreadyProcessed(p, markerBefore) then false
    else if IsExempt(exc, p) then false
    else FirstMatch(filters, p).Some?
  }

  /** The rule order decides which rule is reported: when two rules match,
      the earlier one is the first match whatever follows it. */
  lemma FirstMatchWins(filters: seq<Filter>, p: Post, i: nat, j: nat)
    requires i < j < |filters|
    requires MatchesFilter(p, filters[i]) && MatchesFilter(p, filters[j])
    ensures FirstMatch(filters, p).Some? && FirstMatch(filters, p).value <= i
    ensures FirstMatch(filters, p) != Some(j)
  {
  }

  /* ------------------------------------------------------------- reasons */

  /** The engagement phrases `getFilterReason` names. */
  const ReasonPatternsAsWritten: seq<string> := [
    "like if you", "retweet if", "rt if", "agree if", "comment if",
    "share if", "follow if", "like this if", "retweet this if", "say yes if",
    "type yes if", "drop a", "drop your", "who else", "am i the only one",
    "unpopular opinion", "controversial take", "change my mind",
    "prove me wrong", "hot take"]

  /** `getFilterReason`, naming engagement phrases from `patterns`: the first
      matching keyword for a keyword rule (or "" when none matches), the
      first matching phrase for an engagement rule (or a generic text), a
      fixed text for the other known types, and "" for an unknown type. */
  function ReasonWith(p: Post, f: Filter, patterns: seq<string>): (r: string)
    ensures KindOf(f.filterType).None? ==> r == ""
    ensures KindOf(f.filterType) == Some(Video) ==> r == "Contains video content"
    ensures KindOf(f.filterType) == Some(Links) ==> r == "Contains external links"
    ensures KindOf(f.filterType) == Some(Retweets) ==> r == "Is a retweet"
    ensures KindOf(f.filterType) == Some(Verified) ==> r == "From verified user"
    ensures KindOf(f.filterType) == Some(Ads) ==> r == "Contains promoted content"
    ensures KindOf(f.filterType) == Some(Keywords) ==>
      if MatchesKeywords(p, f.keywords) then
        exists i | 0 <= i < |f.keywords| ::
          && r == "Contains: \"" + f.keywords[i] + "\""
          && Contains(SearchText(p), Lower(f.keywords[i]))
          && forall j | 0 <= j < i :: !Contains(SearchText(p), Lower(f.keywords[j]))
      else r == ""
    ensures KindOf(f.filterType) == Some(Engagement) ==>
      || (exists i | 0 <= i < |patterns| ::
          && r == "Engagement bait: \"" + patterns[i] + "\""
          && Contains(SearchText(p), patterns[i])
          && forall j | 0 <= j < i :: !Contains(SearchText(p), patterns[j]))
      || ((forall j | 0 <= j < |patterns| :: !Contains(SearchText(p), patterns[j]))
          && r == "Engagement bait detected")
  {
    match KindOf(f.filterType)
    case None => ""
    case Some(k) =>
      match k
      case Keywords =>
        (match FirstHit(SearchText(p), LowerAll(f.keywords))
         case Some(i) => "Contains: \"" + f.keywords[i] + "\""
         case None => "")
      case Video => "Contains video content"
      case Links => "Contains external links"
      case Retweets => "Is a retweet"
      case Verified => "From verified user"
      case Engagement =>
        (match FirstHit(SearchText(p), patterns)
         case Some(i) => "Engagement bait: \"" + patterns[i] + "\""
         case None => "Engagement bait detected")
      case Ads => "Contains promoted content"
  }

  /** `getFilterReason` as written: its phrase list has only 20 of the 22
      phrases `isEngagementBait` detects. */
  function FilterReasonAsWritten(p: Post, f: Filter): (r: string)
    ensures KindOf(f.filterType) == Some(Engagement) && r != "Engagement bait detected" ==>
      exists i | 0 <= i < |ReasonPatternsAsWritten| :: r == "Engagement bait: \"" + ReasonPatternsAsWritten[i] + "\""
  {
    ReasonWith(p, f, ReasonPatternsAsWritten)
  }

  /** `getFilterReason` naming phrases from the same list the engagement rule
      detects, so a matching engagement rule always names its phrase. */
  function FilterReason(p: Post, f: Filter): (r: string)
    ensures KindOf(f.filterType) == Some(Engagement) && MatchesFilter(p, f) ==>
      exists i | 0 <= i < |EngagementPatterns| ::
        && r == "Engagement bait: \"" + EngagementPatterns[i] + "\""
        && Contains(SearchText(p), EngagementPatterns[i])
  {
    ReasonWith(p, f, EngagementPatterns)
  }
}

=== FILE: engine.dfy ===
/** The suppression engine of the content script: the page as a sequence of
    nodes in document order, hiding one post behind a marker, the re-scan of
    all posts with its processed-state bookkeeping, duplicate-marker cleanup,
    the statistics query, and the configuration update message. */
module Engine {
  import opened Optional
  import opened Seqs
  import opened Filters
  import opened Posts
  import opened Classifier

  /** The marker `hideTweet` inserts before a hidden post: the name of the
      rule that matched and the reason text. */
  datatype Marker = Marker(filterName: string, reason: string)

  /** One element of the page in document order. Element siblings are
      neighbours in the sequence. */
  datatype Node = PostNode(post: Post) | MarkerNode(marker: Marker) | OtherNode

  /** The engine: the active rules, the exemptions, the hidden counter, and
      the page it works on. */
  datatype State = State(
    filters: seq<Filter>,
    exceptions: Exceptions,
    hiddenCount: nat,
    doc: seq<Node>)

  /** A marker is the previous sibling of node `i`. */
  predicate MarkerBefore(doc: seq<Node>, i: int)
    requires 0 <= i < |doc|
  {
    i > 0 && doc[i - 1].MarkerNode?
  }

  /* ---------------------------------------------------------------- hide */

  /** The marker for a post: the name and reason of the first rule in list
      order that matches it, or the generic name "Filter" and no reason. */
  function MarkerFor(filters: seq<Filter>, p: Post): (m: Marker)
    ensures FirstMatch(filters, p).Some? ==>
      var f := filters[FirstMatch(filters, p).value];
      m == Marker(f.name, FilterReasonAsWritten(p, f))
    ensures FirstMatch(filters, p).None? ==> m == Marker("Filter", "")
  {
    match FirstMatch(filters, p)
    case Some(i) => Marker(filters[i].name, FilterReasonAsWritten(p, filters[i]))
    case None => Marker("Filter", "")
  }

  /** The post as `hideTweet` leaves it: filtered class and processed
      attribute set, nothing else changed. */
  function MarkHidden(p: Post): Post {
    p.(filtered := true, processed := true)
  }

  /** The nodes that replace a hidden post: its marker, then the post. */
  function Suppress(filters: seq<Filter>, p: Post): seq<Node> {
    [MarkerNode(MarkerFor(filters, p)), PostNode(MarkHidden(p))]
  }

  /** `hideTweet` on the post at `i`: a no-op when the post already carries
      the filtered class; otherwise the post is marked filtered and
      processed, a marker naming the first matching rule is inserted right
      before it, the counter grows by one, and nothing else changes. */
  function HideTweet(st: State, i: nat): (r: State)
    requires i < |st.doc| && st.doc[i].PostNode?
    ensures st.doc[i].post.filtered ==> r == st
    ensures !st.doc[i].post.filtered ==>
      var p := st.doc[i].post;
      && r.filters == st.filters && r.exceptions == st.exceptions
      && r.hiddenCount == st.hiddenCount + 1
      && |r.doc| == |st.doc| + 1
      && r.doc[..i] == st.doc[..i]
      && r.doc[i + 2..] == st.doc[i + 1..]
      && r.doc[i] == MarkerNode(MarkerFor(st.filters, p))
      && r.doc[i + 1].PostNode?
      && r.doc[i + 1].post.filtered && r.doc[i + 1].post.processed
      && r.doc[i + 1].post.(filtered := p.filtered, processed := p.processed) == p
  {
    var p := st.doc[i].post;
    if p.filtered then st
    else
      var doc := st.doc[..i] + Suppress(st.filters, p) + st.doc[i + 1..];
      assert doc[i + 2..] == st.doc[i + 1..];
      st.(doc := doc, hiddenCount := st.hiddenCount + 1)
  }

  /** Hiding the same post a second time changes nothing: after the first
      call the post sits one place further on and carries the filtered
      class. */
  lemma HideTweetIdempotent(st: State, i: nat)
    requires i < |st.doc| && st.doc[i].PostNode?
    ensures st.doc[i].post.filtered ==> HideTweet(HideTweet(st, i), i) == HideTweet(st, i)
    ensures !st.doc[i].post.filtered ==>
      var r := HideTweet(st, i);
      i + 1 < |r.doc| && r.doc[i + 1].PostNode? && HideTweet(r, i + 1) == r
  {
  }

  /* ---------------------------------------------------------------- scan */

  /** One post visited by `filterExistingPosts`: skipped when already
      processed, hidden when `shouldHideTweet` says so, otherwise only marked
      processed. Other nodes are left alone. Returns the replacement nodes
      and how many posts were hidden. */
  function Visit(filters: seq<Filter>, exc: Exceptions, node: Node, markerBefore: bool): (r: (seq<Node>, nat))
    ensures |r.0| == 1 + r.1
    ensures r.1 == 1 <==> node.PostNode? && ShouldHide(exc, filters, node.post, markerBefore)
  {
    match node
    case PostNode(p) =>
      if AlreadyProcessed(p, markerBefore) then ([node], 0)
      else if ShouldHide(exc, filters, p, markerBefore) then (Suppress(filters, p), 1)
      else ([PostNode(p.(processed := true))], 0)
    case _ => ([node], 0)
  }

  /** Visits every node in document order. A marker inserted before a post
      does not change the previous sibling of any later post, so each post
      sees the previous sibling it had before the scan began. */
  function ScanNodes(filters: seq<Filter>, exc: Exceptions, nodes: seq<Node>, markerBefore: bool): (r: (seq<Node>, nat))
    ensures |r.0| == |nodes| + r.1
    ensures r.1 <= |nodes|
    decreases |nodes|
  {
    if |nodes| == 0 then ([], 0)
    else
      var head := Visit(filters, exc, nodes[0], markerBefore);
      var tail := ScanNodes(filters, exc, nodes[1..], nodes[0].MarkerNode?);
      (head.0 + tail.0, head.1 + tail.1)
  }

  /** Every post on the page counts as already processed: the state a scan
      leaves behind. */
  predicate Settled(nodes: seq<Node>, markerBefore: bool)
    decreases |nodes|
  {
    || |nodes| == 0
    || (&& (nodes[0].PostNode? ==> AlreadyProcessed(nodes[0].post, markerBefore))
        && Settled(nodes[1..], nodes[0].MarkerNode?))
  }

  /** Is the last node a marker (or, for no nodes, was the node before). */
  function EndsWithMarker(nodes: seq<Node>, markerBefore: bool): bool {
    if |nodes| == 0 then markerBefore else nodes[|nodes| - 1].MarkerNode?
  }

  function CountMarkers(nodes: seq<Node>): nat
    decreases |nodes|
  {
    if |nodes| == 0 then 0
    else (if nodes[0].MarkerNode? then 1 else 0) + CountMarkers(nodes[1..])
  }

  /** The posts on the page, in document order. */
  function PostsOf(nodes: seq<Node>): seq<Post>
    decreases |nodes|
  {
    if |nodes| == 0 then []
    else (if nodes[0].PostNode? then [nodes[0].post] else []) + PostsOf(nodes[1..])
  }

  function CountFiltered(posts: seq<Post>): nat
    decreases |posts|
  {
    if |posts| == 0 then 0
    else (if posts[0].filtered then 1 else 0) + CountFiltered(posts[1..])
  }

  /** `after` is `before` with at most the processed attribute and the
      filtered class set; the attribute is set whenever anything changed. */
  predicate Marked(before: Post, after: Post) {
    || after == before
    || (after.processed && after == before.(processed := true, filtered := after.filtered))
  }

  /** Post by post, each post of `after` is its counterpart in `before`,
      marked at most. */
  predicate AllMarked(before: seq<Post>, after: seq<Post>)
    decreases |before|
  {
    && |before| == |after|
    && (|before| == 0 || (Marked(before[0], after[0]) && AllMarked(before[1..], after[1..])))
  }

  lemma {:induction false} SettledAppend(a: seq<Node>, b: seq<Node>, markerBefore: bool)
    requires Settled(a, markerBefore)
    requires Settled(b, EndsWithMarker(a, markerBefore))
    ensures Settled(a + b, markerBefore)
    decreases |a|
  {
    if |a| > 0 {
      assert (a + b)[0] == a[0];
      assert (a + b)[1..] == a[1..] + b;
      SettledAppend(a[1..], b, a[0].MarkerNode?);
    } else {
      assert a + b == b;
    }
  }

  lemma {:induction false} CountMarkersAppend(a: seq<Node>, b: seq<Node>)
    ensures CountMarkers(a + b) == CountMarkers(a) + CountMarkers(b)
    decreases |a|
  {
    if |a| > 0 {
      assert (a + b)[1..] == a[1..] + b;
      CountMarkersAppend(a[1..], b);
    } else {
      assert a + b == b;
    }
  }

  lemma {:induction false} PostsOfAppend(a: seq<Node>, b: seq<Node>)
    ensures PostsOf(a + b) == PostsOf(a) + PostsOf(b)
    decreases |a|
  {
    if |a| > 0 {
      assert (a + b)[1..] == a[1..] + b;
      PostsOfAppend(a[1..], b);
    } else {
      assert a + b == b;
    }
  }

  lemma {:induction false} CountFilteredAppend(a: seq<Post>, b: seq<Post>)
    ensures CountFiltered(a + b) == CountFiltered(a) + CountFiltered(b)
    decreases |a|
  {
    if |a| > 0 {
      assert (a + b)[1..] == a[1..] + b;
      CountFilteredAppend(a[1..], b);
    } else {
      assert a + b == b;
    }
  }

  lemma {:induction false} AllMarkedAppend(a: seq<Post>, b: seq<Post>, c: seq<Post>, d: seq<Post>)
    requires AllMarked(a, c) && AllMarked(b, d)
    ensures AllMarked(a + b, c + d)
    decreases |a|
  {
    if |a| > 0 {
      assert (a + b)[1..] == a[1..] + b;
      assert (c + d)[1..] == c[1..] + d;
      AllMarkedAppend(a[1..], b, c[1..], d);
    } else {
      assert a + b == b;
      assert c + d == d;
    }
  }

  /** What one visit does: a post already processed, and any node that is
      not a post, is left as it is; a post `shouldHideTweet` accepts is
      replaced by its marker and the hidden post; any other post only gains
      the processed attribute. Hence the replacement ends in a marker exactly
      when the visited node is one, leaves the post processed, inserts one
      marker per hidden post, and marks the post at most. */
  lemma VisitFacts(filters: seq<Filter>, exc: Exceptions, node: Node, markerBefore: bool)
    ensures var (out, k) := Visit(filters, exc, node, markerBefore);
      && (!node.PostNode? ==> out == [node] && k == 0)
      && (node.PostNode? && AlreadyProcessed(node.post, markerBefore) ==> out == [node] && k == 0)
      && (node.PostNode? && ShouldHide(exc, filters, node.post, markerBefore) ==>
            out == [MarkerNode(MarkerFor(filters, node.post)), PostNode(MarkHidden(node.post))] && k == 1)
      && (node.PostNode? && !AlreadyProcessed(node.post, markerBefore)
          && !ShouldHide(exc, filters, node.post, markerBefore) ==>
            out == [PostNode(node.post.(processed := true))] && k == 0)
      && |out| > 0
      && EndsWithMarker(out, markerBefore) == node.MarkerNode?
      && Settled(out, markerBefore)
      && CountMarkers(out) == CountMarkers([node]) + k
      && AllMarked(PostsOf([node]), PostsOf(out))
      && CountFiltered(PostsOf(out)) == CountFiltered(PostsOf([node])) + k
  {
    var (out, k) := Visit(filters, exc, node, markerBefore);
    assert [node][1..] == [];
    if node.PostNode? && !AlreadyProcessed(node.post, markerBefore)
      && ShouldHide(exc, filters, node.post, markerBefore) {
      assert out == Suppress(filters, node.post);
      assert out[1..] == [PostNode(MarkHidden(node.post))];
      assert out[1..][1..] == [];
      assert PostsOf(out[1..]) == [MarkHidden(node.post)];
      assert PostsOf(out) == [MarkHidden(node.post)];
    } else {
      assert out[1..] == [];
    }
  }

  /** What a scan does: it leaves the page settled, inserts one marker for
      each post it hides, marks each post at most, and each hidden post
      gains the filtered class. */
  lemma {:induction false} ScanFacts(filters: seq<Filter>, exc: Exceptions, nodes: seq<Node>, markerBefore: bool)
    ensures var (out, k) := ScanNodes(filters, exc, nodes, markerBefore);
      && Settled(out, markerBefore)
      && CountMarkers(out) == CountMarkers(nodes) + k
      && AllMarked(PostsOf(nodes), PostsOf(out))
      && CountFiltered(PostsOf(out)) == CountFiltered(PostsOf(nodes)) + k
    decreases |nodes|
  {
    if |nodes| > 0 {
      var (head, k) := Visit(filters, exc, nodes[0], markerBefore);
      var (tail, n) := ScanNodes(filters, exc, nodes[1..], nodes[0].MarkerNode?);
      VisitFacts(filters, exc, nodes[0], markerBefore);
      ScanFacts(filters, exc, nodes[1..], nodes[0].MarkerNode?);
      SettledAppend(head, tail, markerBefore);
      assert nodes == [nodes[0]] + nodes[1..];
      CountMarkersAppend(head, tail);
      CountMarkersAppend([nodes[0]], nodes[1..]);
      PostsOfAppend(head, tail);
      PostsOfAppend([nodes[0]], nodes[1..]);
      AllMarkedAppend(PostsOf([nodes[0]]), PostsOf(nodes[1..]), PostsOf(head), PostsOf(tail));
      CountFilteredAppend(PostsOf(head), PostsOf(tail));
      CountFilteredAppend(PostsOf([nodes[0]]), PostsOf(nodes[1..]));
    } else {
      assert PostsOf(nodes) == [];
    }
  }

  /** Scanning two stretches of the page one after the other is scanning
      them together: the second stretch sees the last node of the first as
      its previous sibling. */
  lemma {:induction false} ScanAppend(filters: seq<Filter>, exc: Exceptions, a: seq<Node>, b: seq<Node>, markerBefore: bool)
    ensures ScanNodes(filters, exc, a + b, markerBefore).0 ==
      ScanNodes(filters, exc, a, markerBefore).0 + ScanNodes(filters, exc, b, EndsWithMarker(a, markerBefore)).0
    ensures ScanNodes(filters, exc, a + b, markerBefore).1 ==
      ScanNodes(filters, exc, a, markerBefore).1 + ScanNodes(filters, exc, b, EndsWithMarker(a, markerBefore)).1
    decreases |a|
  {
    if |a| == 0 {
      assert a + b == b;
    } else {
      var m := EndsWithMarker(a, markerBefore);
      var h := Visit(filters, exc, a[0], markerBefore);
      var x := ScanNodes(filters, exc, a[1..], a[0].MarkerNode?);
      var y := ScanNodes(filters, exc, b, m);
      var ab := ScanNodes(filters, exc, a + b, markerBefore);
      assert ab.0 == h.0 + ScanNodes(filters, exc, a[1..] + b, a[0].MarkerNode?).0
          && ab.1 == h.1 + ScanNodes(filters, exc, a[1..] + b, a[0].MarkerNode?).1 by {
        assert (a + b)[0] == a[0];
        assert (a + b)[1..] == a[1..] + b;
        ScanCons(filters, exc, a + b, markerBefore);
      }
      assert ScanNodes(filters, exc, a[1..] + b, a[0].MarkerNode?).0 == x.0 + y.0
          && ScanNodes(filters, exc, a[1..] + b, a[0].MarkerNode?).1 == x.1 + y.1 by {
        assert EndsWithMarker(a[1..], a[0].MarkerNode?) == m;
        ScanAppend(filters, exc, a[1..], b, a[0].MarkerNode?);
      }
      ScanCons(filters, exc, a, markerBefore);
      ConcatAssoc(h.0, x.0, y.0);
    }
  }

  /** One step of the scan: the first node's replacement, then the rest. */
  lemma ScanCons(filters: seq<Filter>, exc: Exceptions, nodes: seq<Node>, markerBefore: bool)
    requires |nodes| > 0
    ensures ScanNodes(filters, exc, nodes, markerBefore).0 ==
      Visit(filters, exc, nodes[0], markerBefore).0 + ScanNodes(filters, exc, nodes[1..], nodes[0].MarkerNode?).0
    ensures ScanNodes(filters, exc, nodes, markerBefore).1 ==
      Visit(filters, exc, nodes[0], markerBefore).1 + ScanNodes(filters, exc, nodes[1..], nodes[0].MarkerNode?).1
  {
  }

  /** The scan hides the post at `j`: it is a post and `shouldHideTweet`
      accepts it with the previous sibling it has on the page. */
  predicate Hides(filters: seq<Filter>, exc: Exceptions, doc: seq<Node>, j: int)
    requires 0 <= j < |doc|
  {
    doc[j].PostNode? && ShouldHide(exc, filters, doc[j].post, MarkerBefore(doc, j))
  }

  /** How many of the first `i` nodes of the page the scan hides. */
  function HiddenBefore(filters: seq<Filter>, exc: Exceptions, doc: seq<Node>, i: nat): nat
    requires i <= |doc|
  {
    if i == 0 then 0
    else HiddenBefore(filters, exc, doc, i - 1) + (if Hides(filters, exc, doc, i - 1) then 1 else 0)
  }

  /** Where node `i` of the page ends up in `out`: each marker inserted
      before it shifts it one place on. A post already processed, and any
      node that is not a post, keeps its place unchanged; a post the scan
      hides is preceded by the marker naming its first matching rule and
      gains the filtered class and processed attribute; any other post only
      gains the processed attribute. */
  predicate Fate(filters: seq<Filter>, exc: Exceptions, doc: seq<Node>, out: seq<Node>, i: int)
    requires 0 <= i < |doc|
  {
    var j := i + HiddenBefore(filters, exc, doc, i);
    match doc[i]
    case PostNode(p) =>
      if AlreadyProcessed(p, MarkerBefore(doc, i)) then
        j < |out| && out[j] == doc[i]
      else if ShouldHide(exc, filters, p, MarkerBefore(doc, i)) then
        j + 1 < |out| && out[j] == MarkerNode(MarkerFor(filters, p)) && out[j + 1] == PostNode(MarkHidden(p))
      else
        j < |out| && out[j] == PostNode(p.(processed := true))
    case _ => j < |out| && out[j] == doc[i]
  }

  /** The count of posts a scan of the first `i` nodes hides is the number
      the reference count gives. */
  lemma {:induction false} ScanCountIsHiddenBefore(filters: seq<Filter>, exc: Exceptions, doc: seq<Node>, i: nat)
    requires i <= |doc|
    ensures ScanNodes(filters, exc, doc[..i], false).1 == HiddenBefore(filters, exc, doc, i)
  {
    if i > 0 {
      ScanCountIsHiddenBefore(filters, exc, doc, i - 1);
      assert doc[..i] == doc[..i - 1] + [doc[i - 1]];
      ScanAppend(filters, exc, doc[..i - 1], [doc[i - 1]], false);
      assert EndsWithMarker(doc[..i - 1], false) == MarkerBefore(doc, i - 1);
      assert [doc[i - 1]][1..] == [];
    }
  }

  /** The scan puts node `i` of the page where `Fate` says. */
  lemma ScanPlacesNode(filters: seq<Filter>, exc: Exceptions, doc: seq<Node>, i: nat)
    requires i < |doc|
    ensures Fate(filters, exc, doc, ScanNodes(filters, exc, doc, false).0, i)
  {
    var a, b := doc[..i], doc[i..];
    assert doc == a + b;
    ScanAppend(filters, exc, a, b, false);
    ScanCountIsHiddenBefore(filters, exc, doc, i);
    var m := EndsWithMarker(a, false);
    assert m == MarkerBefore(doc, i);
    assert b[0] == doc[i];
    var v := Visit(filters, exc, doc[i], m).0;
    var y := ScanNodes(filters, exc, b, m).0;
    assert y[..|v|] == v;
    VisitFacts(filters, exc, doc[i], m);
  }

  /** The scan puts every node of the page where `Fate` says, and the page
      grows by exactly the number of posts it hides. */
  lemma ScanPlacesEveryNode(filters: seq<Filter>, exc: Exceptions, doc: seq<Node>)
    ensures var (out, k) := ScanNodes(filters, exc, doc, false);
      && k == HiddenBefore(filters, exc, doc, |doc|)
      && |out| == |doc| + k
      && forall i | 0 <= i < |doc| :: Fate(filters, exc, doc, out, i)
  {
    ScanCountIsHiddenBefore(filters, exc, doc, |doc|);
    assert doc[..|doc|] == doc;
    forall i | 0 <= i < |doc|
      ensures Fate(filters, exc, doc, ScanNodes(filters, exc, doc, false).0, i)
    {
      ScanPlacesNode(filters, exc, doc, i);
    }
  }

  /** A scan of a settled page finds nothing to do. */
  lemma {:induction false} ScanSettledIsNoop(filters: seq<Filter>, exc: Exceptions, nodes: seq<Node>, markerBefore: bool)
    requires Settled(nodes, markerBefore)
    ensures ScanNodes(filters, exc, nodes, markerBefore) == (nodes, 0)
    decreases |nodes|
  {
    if |nodes| > 0 {
      ScanSettledIsNoop(filters, exc, nodes[1..], nodes[0].MarkerNode?);
      assert [nodes[0]] + nodes[1..] == nodes;
    }
  }

  /** `filterExistingPosts`: with no active rules nothing happens at all.
      Otherwise every post is visited; afterwards every post counts as
      processed, the counter has grown by the number of markers inserted,
      which is also the number of posts that gained the filtered class, and
      apart from the processed attribute and filtered class the posts are
      unchanged. */
  function FilterExistingPosts(st: State): (r: State)
    ensures |st.filters| == 0 ==> r == st
    ensures r.filters == st.filters && r.exceptions == st.exceptions
    ensures |st.filters| > 0 ==> Settled(r.doc, false)
    ensures r.hiddenCount >= st.hiddenCount
    ensures CountMarkers(r.doc) == CountMarkers(st.doc) + (r.hiddenCount - st.hiddenCount)
    ensures CountFiltered(PostsOf(r.doc)) == CountFiltered(PostsOf(st.doc)) + (r.hiddenCount - st.hiddenCount)
    ensures AllMarked(PostsOf(st.doc), PostsOf(r.doc))
    ensures NoStacks(st.doc, false) ==> NoStacks(r.doc, false)
    ensures |st.filters| > 0 ==>
      && r.hiddenCount == st.hiddenCount + HiddenBefore(st.filters, st.exceptions, st.doc, |st.doc|)
      && |r.doc| == |st.doc| + HiddenBefore(st.filters, st.exceptions, st.doc, |st.doc|)
      && forall i | 0 <= i < |st.doc| :: Fate(st.filters, st.exceptions, st.doc, r.doc, i)
  {
    if |st.filters| == 0 then
      AllMarkedRefl(PostsOf(st.doc));
      st
    else
      var (doc, k) := ScanNodes(st.filters, st.exceptions, st.doc, false);
      ScanFacts(st.filters, st.exceptions, st.doc, false);
      ScanPlacesEveryNode(st.filters, st.exceptions, st.doc);
      var r := st.(doc := doc, hiddenCount := st.hiddenCount + k);
      if NoStacks(st.doc, false) then
        ScanKeepsNoStacks(st.filters, st.exceptions, st.doc, false);
        r
      else r
  }

  lemma {:induction false} AllMarkedRefl(posts: seq<Post>)
    ensures AllMarked(posts, posts)
    decreases |posts|
  {
    if |posts| > 0 {
      AllMarkedRefl(posts[1..]);
    }
  }

  /** Re-scanning an unchanged page hides nothing new and leaves the counter
      alone. */
  lemma RescanIsIdempotent(st: State)
    ensures FilterExistingPosts(FilterExistingPosts(st)) == FilterExistingPosts(st)
  {
    var r := FilterExistingPosts(st);
    if |st.filters| > 0 {
      ScanSettledIsNoop(r.filters, r.exceptions, r.doc, false);
    }
  }

  /** Processed posts are never looked at again, even after the rules or
      exemptions change: a rule added later does not reach posts an earlier
      scan passed. */
  lemma SettledPageIgnoresNewRules(st: State, filters: seq<Filter>, exc: Exceptions)
    requires Settled(st.doc, false)
    ensures FilterExistingPosts(st.(filters := filters, exceptions := exc)).doc == st.doc
    ensures FilterExistingPosts(st.(filters := filters, exceptions := exc)).hiddenCount == st.hiddenCount
  {
    ScanSettledIsNoop(filters, exc, st.doc, false);
  }

  /* ------------------------------------------------------------- cleanup */

  /** The nodes that are not markers, in document order. */
  function NonMarkers(nodes: seq<Node>): seq<Node>
    decreases |nodes|
  {
    if |nodes| == 0 then []
    else (if nodes[0].MarkerNode? then [] else [nodes[0]]) + NonMarkers(nodes[1..])
  }

  /** `cleanupDuplicateIndicators`, from a set of tweet ids already seen:
      markers are visited in document order, and a marker whose next sibling
      is a post whose id was already seen is removed; every other node stays.
      Only markers are removed, and the rest keeps its order. */
  function CleanupIndicatorsFrom(nodes: seq<Node>, seen: set<string>): (r: seq<Node>)
    ensures NonMarkers(r) == NonMarkers(nodes)
    ensures IsSubsequence(r, nodes)
    decreases |nodes|
  {
    if |nodes| == 0 then []
    else if nodes[0].MarkerNode? && |nodes| > 1 && nodes[1].PostNode? then
      var id := TweetId(nodes[1].post);
      if id in seen then
        var rest := CleanupIndicatorsFrom(nodes[1..], seen);
        SubsequenceSkip(rest, nodes[0], nodes[1..]);
        assert [nodes[0]] + nodes[1..] == nodes;
        rest
      else
        var rest := CleanupIndicatorsFrom(nodes[1..], seen + {id});
        SubsequenceKeep(rest, nodes[0], nodes[1..]);
        assert [nodes[0]] + nodes[1..] == nodes;
        assert ([nodes[0]] + rest)[1..] == rest;
        [nodes[0]] + rest
    else
      var rest := CleanupIndicatorsFrom(nodes[1..], seen);
      SubsequenceKeep(rest, nodes[0], nodes[1..]);
      assert [nodes[0]] + nodes[1..] == nodes;
      assert ([nodes[0]] + rest)[1..] == rest;
      [nodes[0]] + rest
  }

  /** `cleanupDuplicateIndicators` on the whole page: only markers go, the
      rest keeps its order, and on a page without stacked markers exactly the
      later markers of each post's id go, as the reference `DedupMarkers`
      says. */
  function CleanupIndicators(nodes: seq<Node>): (r: seq<Node>)
    ensures NonMarkers(r) == NonMarkers(nodes)
    ensures IsSubsequence(r, nodes)
    ensures NoStacks(nodes, false) ==> r == DedupMarkers(nodes)
  {
    if NoStacks(nodes, false) then
      CleanupAgreesWithoutStacks(nodes, {}, false);
      CleanupIndicatorsFrom(nodes, {})
    else
      CleanupIndicatorsFrom(nodes, {})
  }

  /** The id of the post a marker at the head of `rest`'s predecessor stands
      for: the first node after it that is not itself a marker, when that
      node is a post. Removing markers never changes it. */
  function OwnerId(rest: seq<Node>): Option<string> {
    var nm := NonMarkers(rest);
    if |nm| > 0 && nm[0].PostNode? then Some(TweetId(nm[0].post)) else None
  }

  /** Each marker that stands for a post, with that post's id, in document
      order. */
  function Owned(nodes: seq<Node>): seq<(Marker, string)>
    decreases |nodes|
  {
    if |nodes| == 0 then []
    else
      (if nodes[0].MarkerNode? && OwnerId(nodes[1..]).Some?
       then [(nodes[0].marker, OwnerId(nodes[1..]).value)] else [])
      + Owned(nodes[1..])
  }

  /** No id occurs twice. */
  predicate DistinctIds(xs: seq<(Marker, string)>) {
    forall i, j | 0 <= i < j < |xs| :: xs[i].1 != xs[j].1
  }

  /** The first entry for each id not in `seen`, in order. */
  function FirstPerId(xs: seq<(Marker, string)>, seen: set<string>): (r: seq<(Marker, string)>)
    ensures forall i | 0 <= i < |r| :: r[i].1 !in seen
    ensures DistinctIds(r)
    decreases |xs|
  {
    if |xs| == 0 then []
    else if xs[0].1 in seen then FirstPerId(xs[1..], seen)
    else
      var rest := FirstPerId(xs[1..], seen + {xs[0].1});
      var r := [xs[0]] + rest;
      assert forall i | 1 <= i < |r| :: r[i] == rest[i - 1] && r[i].1 != xs[0].1;
      r
  }

  /** Every id of `xs` outside `seen` has an entry in `r`. */
  predicate CoversIds(xs: seq<(Marker, string)>, seen: set<string>, r: seq<(Marker, string)>) {
    forall i | 0 <= i < |xs| && xs[i].1 !in seen :: exists j | 0 <= j < |r| :: r[j].1 == xs[i].1
  }

  /** `FirstPerId` only drops entries, and keeps an entry for each id not
      already seen. */
  lemma {:induction false} FirstPerIdKeeps(xs: seq<(Marker, string)>, seen: set<string>)
    ensures IsSubsequence(FirstPerId(xs, seen), xs)
    ensures CoversIds(xs, seen, FirstPerId(xs, seen))
    decreases |xs|
  {
    if |xs| > 0 {
      var seen' := if xs[0].1 in seen then seen else seen + {xs[0].1};
      FirstPerIdKeeps(xs[1..], seen');
      var rest := FirstPerId(xs[1..], seen');
      var r := FirstPerId(xs, seen);
      assert [xs[0]] + xs[1..] == xs;
      if xs[0].1 in seen {
        assert r == rest;
        SubsequenceSkip(rest, xs[0], xs[1..]);
      } else {
        SubsequenceKeep(rest, xs[0], xs[1..]);
        assert r == [xs[0]] + rest;
      }
      forall i | 0 <= i < |xs| && xs[i].1 !in seen
        ensures exists j | 0 <= j < |r| :: r[j].1 == xs[i].1
      {
        if i == 0 {
          assert r[0].1 == xs[0].1;
        } else if xs[i].1 == xs[0].1 {
          assert r[0].1 == xs[i].1;
        } else {
          assert xs[1..][i - 1] == xs[i];
          assert xs[1..][i - 1].1 !in seen';
          var j :| 0 <= j < |rest| && rest[j].1 == xs[i].1;
          if xs[0].1 in seen {
            assert r[j].1 == xs[i].1;
          } else {
            assert r[j + 1].1 == xs[i].1;
          }
        }
      }
    }
  }

  /** `x` occurs in `xs` with no entry of the same id before it. */
  predicate FirstOfId(xs: seq<(Marker, string)>, x: (Marker, string)) {
    exists i | 0 <= i < |xs| :: xs[i] == x && forall k | 0 <= k < i :: xs[k].1 != x.1
  }

  /** Each entry `FirstPerId` keeps is the first entry of its id, not a
      later one. */
  lemma {:induction false} FirstPerIdKeepsFirst(xs: seq<(Marker, string)>, seen: set<string>)
    ensures forall j | 0 <= j < |FirstPerId(xs, seen)| :: FirstOfId(xs, FirstPerId(xs, seen)[j])
    decreases |xs|
  {
    if |xs| > 0 {
      var seen' := if xs[0].1 in seen then seen else seen + {xs[0].1};
      FirstPerIdKeepsFirst(xs[1..], seen');
      var rest := FirstPerId(xs[1..], seen');
      var r := FirstPerId(xs, seen);
      forall j | 0 <= j < |r|
        ensures FirstOfId(xs, r[j])
      {
        if xs[0].1 !in seen && j == 0 {
          assert xs[0] == r[0];
        } else {
          var jr := if xs[0].1 in seen then j else j - 1;
          assert r[j] == rest[jr];
          assert rest[jr].1 !in seen';
          var i :| 0 <= i < |xs[1..]| && xs[1..][i] == rest[jr]
            && forall k | 0 <= k < i :: xs[1..][k].1 != rest[jr].1;
          assert xs[i + 1] == r[j];
          forall k | 0 <= k < i + 1
            ensures xs[k].1 != r[j].1
          {
            if k > 0 {
              assert xs[k] == xs[1..][k - 1];
            }
          }
        }
      }
    }
  }

  /** The reference definition of duplicate-marker removal, with each
      marker standing for the first post after any markers stacked before
      it: a marker standing for a post whose id was already seen is removed;
      every other node stays. */
  function DedupMarkersFrom(nodes: seq<Node>, seen: set<string>): (r: seq<Node>)
    ensures NonMarkers(r) == NonMarkers(nodes)
    ensures IsSubsequence(r, nodes)
    decreases |nodes|
  {
    if |nodes| == 0 then []
    else
      var owner := OwnerId(nodes[1..]);
      assert [nodes[0]] + nodes[1..] == nodes;
      if nodes[0].MarkerNode? && owner.Some? && owner.value in seen then
        var rest := DedupMarkersFrom(nodes[1..], seen);
        SubsequenceSkip(rest, nodes[0], nodes[1..]);
        rest
      else
        var seen' := if nodes[0].MarkerNode? && owner.Some? then seen + {owner.value} else seen;
        var rest := DedupMarkersFrom(nodes[1..], seen');
        SubsequenceKeep(rest, nodes[0], nodes[1..]);
        assert ([nodes[0]] + rest)[1..] == rest;
        [nodes[0]] + rest
  }

  /** The markers the cleanup keeps are, for each id, the first marker in
      document order that stands for a post with that id. */
  lemma {:induction false} DedupMarkersFromOwned(nodes: seq<Node>, seen: set<string>)
    ensures Owned(DedupMarkersFrom(nodes, seen)) == FirstPerId(Owned(nodes), seen)
    decreases |nodes|
  {
    if |nodes| > 0 {
      var owner := OwnerId(nodes[1..]);
      var head := if nodes[0].MarkerNode? && owner.Some? then [(nodes[0].marker, owner.value)] else [];
      assert Owned(nodes) == head + Owned(nodes[1..]);
      if nodes[0].MarkerNode? && owner.Some? && owner.value in seen {
        DedupMarkersFromOwned(nodes[1..], seen);
        assert (head + Owned(nodes[1..]))[1..] == Owned(nodes[1..]);
      } else {
        var seen' := if nodes[0].MarkerNode? && owner.Some? then seen + {owner.value} else seen;
        DedupMarkersFromOwned(nodes[1..], seen');
        var rest := DedupMarkersFrom(nodes[1..], seen');
        var r := [nodes[0]] + rest;
        assert r[1..] == rest;
        assert OwnerId(rest) == owner;
        if nodes[0].MarkerNode? && owner.Some? {
          assert (head + Owned(nodes[1..]))[1..] == Owned(nodes[1..]);
        } else {
          assert head + Owned(nodes[1..]) == Owned(nodes[1..]);
        }
      }
    }
  }

  /** Duplicate-marker removal by reference: afterwards no two markers stand
      for posts with the same id, and nothing but markers is removed. */
  function DedupMarkers(nodes: seq<Node>): (r: seq<Node>)
    ensures DistinctIds(Owned(r))
    ensures NonMarkers(r) == NonMarkers(nodes)
    ensures IsSubsequence(r, nodes)
  {
    DedupMarkersFromOwned(nodes, {});
    DedupMarkersFrom(nodes, {})
  }

  /** For each id with a marker before the cleanup, the first such marker
      is still there afterwards, and every marker kept was there before. */
  lemma DedupMarkersKeepsFirst(nodes: seq<Node>)
    ensures Owned(DedupMarkers(nodes)) == FirstPerId(Owned(nodes), {})
    ensures IsSubsequence(Owned(DedupMarkers(nodes)), Owned(nodes))
    ensures CoversIds(Owned(nodes), {}, Owned(DedupMarkers(nodes)))
  {
    DedupMarkersFromOwned(nodes, {});
    FirstPerIdKeeps(Owned(nodes), {});
  }

  /** No marker directly follows another (nor the node before the first,
      when `markerBefore`): the shape `hideTweet` produces. */
  predicate NoStacks(nodes: seq<Node>, markerBefore: bool)
    decreases |nodes|
  {
    || |nodes| == 0
    || (&& !(markerBefore && nodes[0].MarkerNode?)
        && NoStacks(nodes[1..], nodes[0].MarkerNode?))
  }

  lemma NoStacksWeaken(nodes: seq<Node>, markerBefore: bool)
    requires NoStacks(nodes, true)
    ensures NoStacks(nodes, markerBefore)
  {
  }

  lemma {:induction false} NoStacksAppend(a: seq<Node>, b: seq<Node>, markerBefore: bool)
    requires NoStacks(a, markerBefore)
    requires NoStacks(b, EndsWithMarker(a, markerBefore))
    ensures NoStacks(a + b, markerBefore)
    decreases |a|
  {
    if |a| > 0 {
      assert (a + b)[0] == a[0];
      assert (a + b)[1..] == a[1..] + b;
      NoStacksAppend(a[1..], b, a[0].MarkerNode?);
    } else {
      assert a + b == b;
    }
  }

  /** A scan never stacks markers: it only puts a marker before a post that
      had none. */
  lemma {:induction false} ScanKeepsNoStacks(filters: seq<Filter>, exc: Exceptions, nodes: seq<Node>, markerBefore: bool)
    requires NoStacks(nodes, markerBefore)
    ensures NoStacks(ScanNodes(filters, exc, nodes, markerBefore).0, markerBefore)
    decreases |nodes|
  {
    if |nodes| > 0 {
      var (head, k) := Visit(filters, exc, nodes[0], markerBefore);
      var (tail, n) := ScanNodes(filters, exc, nodes[1..], nodes[0].MarkerNode?);
      VisitFacts(filters, exc, nodes[0], markerBefore);
      ScanKeepsNoStacks(filters, exc, nodes[1..], nodes[0].MarkerNode?);
      if k == 1 {
        assert head[1..] == [head[1]] && head[1..][1..] == [];
      } else {
        assert head[1..] == [];
      }
      NoStacksAppend(head, tail, markerBefore);
    }
  }

  /** Removing markers from a page without stacks leaves none. */
  lemma {:induction false} CleanupKeepsNoStacks(nodes: seq<Node>, seen: set<string>, markerBefore: bool)
    requires NoStacks(nodes, markerBefore)
    ensures NoStacks(CleanupIndicatorsFrom(nodes, seen), markerBefore)
    decreases |nodes|
  {
    if |nodes| > 0 {
      var r := CleanupIndicatorsFrom(nodes, seen);
      if nodes[0].MarkerNode? && |nodes| > 1 && nodes[1].PostNode? {
        var id := TweetId(nodes[1].post);
        if id in seen {
          NoStacksWeaken(nodes[1..], markerBefore);
          CleanupKeepsNoStacks(nodes[1..], seen, markerBefore);
        } else {
          CleanupKeepsNoStacks(nodes[1..], seen + {id}, true);
          assert r[1..] == CleanupIndicatorsFrom(nodes[1..], seen + {id});
        }
      } else {
        CleanupKeepsNoStacks(nodes[1..], seen, nodes[0].MarkerNode?);
        assert r[1..] == CleanupIndicatorsFrom(nodes[1..], seen);
      }
    }
  }

  /** On a page without stacked markers the next sibling of a marker is the
      post it stands for, so `cleanupDuplicateIndicators` removes exactly
      what the reference definition removes. */
  lemma {:induction false} CleanupAgreesWithoutStacks(nodes: seq<Node>, seen: set<string>, markerBefore: bool)
    requires NoStacks(nodes, markerBefore)
    ensures CleanupIndicatorsFrom(nodes, seen) == DedupMarkersFrom(nodes, seen)
    decreases |nodes|
  {
    if |nodes| > 0 {
      var owner := OwnerId(nodes[1..]);
      if nodes[0].MarkerNode? && |nodes| > 1 && nodes[1].PostNode? {
        assert NonMarkers(nodes[1..]) == [nodes[1]] + NonMarkers(nodes[2..]) by {
          assert nodes[1..][1..] == nodes[2..];
        }
        var id := TweetId(nodes[1].post);
        assert owner == Some(id);
        if id in seen {
          CleanupAgreesWithoutStacks(nodes[1..], seen, true);
        } else {
          CleanupAgreesWithoutStacks(nodes[1..], seen + {id}, true);
        }
      } else if nodes[0].MarkerNode? && |nodes| > 1 {
        assert !nodes[1].MarkerNode?;
        assert NonMarkers(nodes[1..]) == [nodes[1]] + NonMarkers(nodes[2..]) by {
          assert nodes[1..][1..] == nodes[2..];
        }
        assert owner.None?;
        CleanupAgreesWithoutStacks(nodes[1..], seen, true);
      } else if nodes[0].MarkerNode? {
        assert NonMarkers(nodes[1..]) == [];
        assert owner.None?;
        CleanupAgreesWithoutStacks(nodes[1..], seen, true);
      } else {
        CleanupAgreesWithoutStacks(nodes[1..], seen, false);
      }
    }
  }

  /** `cleanupDuplicateIndicators` on a page without stacked markers: no two
      markers stand for posts with the same id, of the markers for one id
      the first in document order is kept, and nothing but markers goes. */
  lemma CleanupLeavesOnePerId(nodes: seq<Node>)
    requires NoStacks(nodes, false)
    ensures DistinctIds(Owned(CleanupIndicators(nodes)))
    ensures Owned(CleanupIndicators(nodes)) == FirstPerId(Owned(nodes), {})
    ensures CoversIds(Owned(nodes), {}, Owned(CleanupIndicators(nodes)))
  {
    CleanupAgreesWithoutStacks(nodes, {}, false);
    DedupMarkersKeepsFirst(nodes);
  }

  /* --------------------------------------------------- stats and updates */

  /** The answer to the stats query. */
  datatype Stats = Stats(hiddenCount: nat, activeFilters: nat)

  /** `getStats`: the hidden counter and the number of active rules. */
  function GetStats(st: State): (s: Stats)
    ensures s.hiddenCount == st.hiddenCount && s.activeFilters == |st.filters|
  {
    Stats(st.hiddenCount, |st.filters|)
  }

  /** The `updateFilters` message: the new rule list and, optionally, new
      exemptions. */
  datatype Update = Update(filters: seq<Filter>, exceptions: Option<Exceptions>)

  /** Markers hold no posts: dropping them keeps the posts. */
  lemma {:induction false} PostsOfNonMarkers(nodes: seq<Node>)
    ensures PostsOf(NonMarkers(nodes)) == PostsOf(nodes)
    decreases |nodes|
  {
    if |nodes| > 0 {
      PostsOfNonMarkers(nodes[1..]);
      var head := if nodes[0].MarkerNode? then [] else [nodes[0]];
      PostsOfAppend(head, NonMarkers(nodes[1..]));
      if !nodes[0].MarkerNode? {
        assert head[1..] == [];
      }
    }
  }

  /** The handler of `updateFilters`: the rules are replaced wholesale, the
      exemptions too (falling back to the defaults when the message carries
      none), duplicate markers are cleaned up and the page is re-scanned.
      Posts are only ever marked, never dropped or reordered. */
  function HandleUpdate(st: State, msg: Update): (r: State)
    ensures r.filters == msg.filters
    ensures r.exceptions == msg.exceptions.GetOr(DefaultExceptions)
    ensures GetStats(r).activeFilters == |msg.filters|
    ensures |msg.filters| == 0 ==> r.doc == CleanupIndicators(st.doc) && r.hiddenCount == st.hiddenCount
    ensures |msg.filters| > 0 ==> Settled(r.doc, false)
    ensures |msg.filters| > 0 ==>
      var d := CleanupIndicators(st.doc);
      && r.hiddenCount == st.hiddenCount + HiddenBefore(msg.filters, r.exceptions, d, |d|)
      && |r.doc| == |d| + HiddenBefore(msg.filters, r.exceptions, d, |d|)
      && forall i | 0 <= i < |d| :: Fate(msg.filters, r.exceptions, d, r.doc, i)
    ensures r.hiddenCount >= st.hiddenCount
    ensures AllMarked(PostsOf(st.doc), PostsOf(r.doc))
    ensures NoStacks(st.doc, false) ==> NoStacks(r.doc, false)
  {
    var doc := CleanupIndicators(st.doc);
    assert NoStacks(st.doc, false) ==> NoStacks(doc, false) by {
      if NoStacks(st.doc, false) {
        CleanupKeepsNoStacks(st.doc, {}, false);
      }
    }
    PostsOfNonMarkers(doc);
    PostsOfNonMarkers(st.doc);
    FilterExistingPosts(st.(filters := msg.filters,
                            exceptions := msg.exceptions.GetOr(DefaultExceptions),
                            doc := doc))
  }

  /** Start-up (`init` then `startFiltering`): the stored rule list, keeping
      only the enabled rules, and the stored exemptions, each falling back to
      its default when absent; then one scan of the page. */
  function Start(stored: Option<seq<Filter>>, storedExceptions: Option<Exceptions>, doc: seq<Node>): (r: State)
    ensures r.filters == EnabledFilters(stored.GetOr([]))
    ensures forall i | 0 <= i < |r.filters| :: r.filters[i].enabled
    ensures r.exceptions == storedExceptions.GetOr(DefaultExceptions)
    ensures r.hiddenCount == CountMarkers(r.doc) - CountMarkers(doc)
    ensures stored.None? ==> r.doc == doc && r.hiddenCount == 0
    ensures |r.filters| == 0 ==> r.doc == doc && r.hiddenCount == 0
    ensures |r.filters| > 0 ==>
      && r.hiddenCount == HiddenBefore(r.filters, r.exceptions, doc, |doc|)
      && |r.doc| == |doc| + HiddenBefore(r.filters, r.exceptions, doc, |doc|)
      && forall i | 0 <= i < |doc| :: Fate(r.filters, r.exceptions, doc, r.doc, i)
    ensures NoStacks(doc, false) ==> NoStacks(r.doc, false)
  {
    var filters := EnabledFilters(stored.GetOr([]));
    assert forall i | 0 <= i < |filters| :: filters[i] in filters;
    FilterExistingPosts(State(filters, storedExceptions.GetOr(DefaultExceptions), 0, doc))
  }
}

=== FILE: filters.dfy ===
/** The rule record shared by the popup (which edits and stores the list) and
    the content script (which receives the enabled part of it), the seven rule
    type tags, and their display labels. */
module Filters {
  import opened Optional
  import opened Seqs

  /** The rule types the content script knows how to match. */
  datatype Kind = Keywords | Video | Links | Retweets | Verified | Engagement | Ads

  /** The string a rule carries in its `type` field for each kind. */
  function Tag(k: Kind): string {
    match k
    case Keywords => "keywords"
    case Video => "video"
    case Links => "links"
    case Retweets => "retweets"
    case Verified => "verified"
    case Engagement => "engagement"
    case Ads => "ads"
  }

  /** Reads a `type` field; any other string is an unknown type. */
  function KindOf(tag: string): (r: Option<Kind>)
    ensures r.Some? ==> Tag(r.value) == tag
  {
    if tag == "keywords" then Some(Keywords)
    else if tag == "video" then Some(Video)
    else if tag == "links" then Some(Links)
    else if tag == "retweets" then Some(Retweets)
    else if tag == "verified" then Some(Verified)
    else if tag == "engagement" then Some(Engagement)
    else if tag == "ads" then Some(Ads)
    else None
  }

  /** Every kind is recognised from its own tag, so the seven tags are the
      known types and no two kinds share one. */
  lemma KindOfTag(k: Kind)
    ensures KindOf(Tag(k)) == Some(k)
  {
    match k
    case Keywords =>
    case Video => assert "video"[0] != "keywords"[0];
    case Links => assert "links"[0] != "keywords"[0];
    case Retweets => assert "retweets"[0] != "keywords"[0];
    case Verified => assert "verified"[0] != "keywords"[0];
    case Engagement => assert "engagement"[0] != "keywords"[0];
    case Ads => assert "ads"[0] != "keywords"[0];
  }

  /** The text the popup shows for each kind. */
  function Label(k: Kind): string {
    match k
    case Keywords => "Keywords"
    case Video => "Video Posts"
    case Links => "Posts with Links"
    case Retweets => "Retweets"
    case Verified => "Verified Users"
    case Engagement => "Engagement Bait"
    case Ads => "Ads/Promoted Posts"
  }

  /** `getFilterTypeLabel`: the fixed label of a known type, any other type
      string unchanged. */
  function TypeLabel(tag: string): (r: string)
    ensures KindOf(tag).Some? ==> r == Label(KindOf(tag).value)
    ensures KindOf(tag).None? ==> r == tag
  {
    match KindOf(tag)
    case Some(k) => Label(k)
    case None => tag
  }

  /** The label echoes the type back exactly when the type is unknown: every
      known label differs from its tag (they start with a capital letter). */
  lemma TypeLabelEchoesOnlyUnknown(tag: string)
    ensures TypeLabel(tag) == tag <==> KindOf(tag).None?
  {
    match KindOf(tag)
    case Some(k) =>
      assert Label(k)[0] != Tag(k)[0];
    case None =>
  }

  /** One rule as the popup stores it. `filterType` is the `type` field: a
      plain string, because stored configuration may carry a type this
      version does not know. A missing `keywords` array is the empty list. */
  datatype Filter = Filter(
    id: string,
    name: string,
    description: string,
    keywords: seq<string>,
    filterType: string,
    enabled: bool,
    createdAt: string)

  /** `filters.filter(f => f.enabled)`: the enabled rules, in list order, each
      as often as it occurs in the list. */
  function EnabledFilters(fs: seq<Filter>): (r: seq<Filter>)
    ensures |r| <= |fs|
    ensures forall f :: f in r <==> f in fs && f.enabled
    ensures forall f :: multiset(r)[f] == if f.enabled then multiset(fs)[f] else 0
    ensures IsSubsequence(r, fs)
    decreases |fs|
  {
    if |fs| == 0 then []
    else
      var rest := EnabledFilters(fs[1..]);
      assert fs == [fs[0]] + fs[1..];
      if fs[0].enabled then
        SubsequenceKeep(rest, fs[0], fs[1..]);
        [fs[0]] + rest
      else
        SubsequenceSkip(rest, fs[0], fs[1..]);
        rest
  }

  /** The enabled subset of a concatenation is the concatenation of the
      enabled subsets. */
  lemma {:induction false} EnabledAppend(a: seq<Filter>, b: seq<Filter>)
    ensures EnabledFilters(a + b) == EnabledFilters(a) + EnabledFilters(b)
    decreases |a|
  {
    if |a| > 0 {
      assert (a + b)[0] == a[0];
      assert (a + b)[1..] == a[1..] + b;
      EnabledAppend(a[1..], b);
    } else {
      assert a + b == b;
    }
  }

  /** Filtering to the enabled subset twice changes nothing more. */
  lemma {:induction false} EnabledIdempotent(fs: seq<Filter>)
    ensures EnabledFilters(EnabledFilters(fs)) == EnabledFilters(fs)
    decreases |fs|
  {
    if |fs| > 0 {
      EnabledIdempotent(fs[1..]);
    }
  }
}

=== FILE: findings.dfy ===
/** Concrete inputs on which the content script as written departs from what
    it evidently intends, each checked against both the as-written and the
    corrected definitions. */
module Findings {
  import opened Optional
  import opened Strings
  import opened Filters
  import opened Posts
  import opened Classifier
  import opened Engine

  /** A post with the given text region and links and nothing else. */
  function PlainPost(text: string, hrefs: seq<string>): Post {
    Post(Some(text), text, text, hrefs, None, None, [], false, false, false, false,
         false, false, false, false, false)
  }

  /** A character of `t` that `s` lacks keeps `t` out of `s`. */
  lemma AbsentChar(s: string, t: string, c: char)
    requires c in t && c !in s
    ensures !Contains(s, t)
  {
    ContainsIffOccurs(s, t);
  }

  /** Phrases each with a character `s` lacks, the matching entry of `cs`,
      do not occur in `s`. */
  lemma NoneContained(s: string, ps: seq<string>, cs: seq<char>)
    requires |cs| <= |ps|
    requires forall j | 0 <= j < |cs| :: cs[j] in ps[j] && cs[j] !in s
    ensures forall j | 0 <= j < |cs| :: !Contains(s, ps[j])
  {
    forall j | 0 <= j < |cs|
      ensures !Contains(s, ps[j])
    {
      AbsentChar(s, ps[j], cs[j]);
    }
  }

  /* ------------------------------------------------ look-alike hosts */

  const LookalikeHref := "https://" + "netflix.com" + "/title"

  /** The substring test finds "x.com" inside "netflix.com". */
  lemma LookalikeFailsSubstringTest()
    ensures !IsExternalAsWritten(LookalikeHref)
  {
    assert OccursAt(LookalikeHref, "x.com", 14);
    ContainsIffOccurs(LookalikeHref, "x.com");
  }

  /** The host of the link is netflix.com, which is not the site's. */
  lemma LookalikePassesHostTest()
    ensures IsExternalHref(LookalikeHref)
  {
    assert StartsWith(LookalikeHref, "http");
    assert NoHostEnd("netflix.com");
    HostOfHttps("netflix.com", "/title");
    assert !EndsWith("netflix.com", ".x.com");
  }

  const LinksRule := Filter("1", "Links", "", [], "links", true, "")

  /** A link to netflix.com is external, but the substring test sees
      "x.com" inside "netflix.com" and discards it: a post whose only link
      goes there is not caught by the links rule as written, and is caught
      by the host comparison. */
  lemma LookalikeHostIsExternal()
    ensures !HasLinksAsWritten(PlainPost("", [LookalikeHref]))
    ensures !MatchesFilter(PlainPost("", [LookalikeHref]), LinksRule)
    ensures HasLinks(PlainPost("", [LookalikeHref]))
  {
    LookalikeFailsSubstringTest();
    LookalikePassesHostTest();
    assert PlainPost("", [LookalikeHref]).hrefs[0] == LookalikeHref;
  }

  /* ------------------------------------------- engagement reason text */

  const SaidWhatISaid := "i said what i said"

  /** For each of the first 21 engagement phrases, a character of it that
      "i said what i said" lacks. */
  const EarlierMissing: seq<char> := [
    'l', 'r', 'r', 'g', 'c', 'r', 'f', 'l', 'r', 'y', 'y', 'r', 'r', 'o', 'm',
    'u', 'c', 'c', 'p', 'l', 'o']

  /** The same for the 20 phrases the reason text as written names. */
  const AsWrittenMissing: seq<char> := [
    'l', 'r', 'r', 'g', 'c', 'r', 'f', 'l', 'r', 'y', 'y', 'r', 'r', 'o', 'm',
    'u', 'c', 'c', 'p', 'o']

  const BaitRule := Filter("1", "Bait", "", [], "engagement", true, "")

  const SaidPost := PlainPost(SaidWhatISaid, [])

  lemma SaidSearchText()
    ensures SearchText(SaidPost) == SaidWhatISaid
    ensures KindOf(BaitRule.filterType) == Some(Engagement)
  {
    assert TweetText(SaidPost) == SaidWhatISaid;
  }

  /** Each phrase of the reason text as written has the character
      `AsWrittenMissing` gives for it, and "i said what i said" lacks it. */
  lemma AsWrittenCharsAbsent()
    ensures |AsWrittenMissing| == |ReasonPatternsAsWritten|
    ensures forall j | 0 <= j < |AsWrittenMissing| ::
      AsWrittenMissing[j] in ReasonPatternsAsWritten[j] && AsWrittenMissing[j] !in SaidWhatISaid
  {
    forall j | 0 <= j < |AsWrittenMissing|
      ensures AsWrittenMissing[j] in ReasonPatternsAsWritten[j] && AsWrittenMissing[j] !in SaidWhatISaid
    {
      var c := AsWrittenMissing[j];
      assert c !in SaidWhatISaid;
      assert c in ReasonPatternsAsWritten[j];
    }
  }

  /** The same for the first 21 engagement phrases and `EarlierMissing`. */
  lemma EarlierCharsAbsent()
    ensures |EarlierMissing| == 21
    ensures forall j | 0 <= j < |EarlierMissing| ::
      EarlierMissing[j] in EngagementPatterns[j] && EarlierMissing[j] !in SaidWhatISaid
  {
    forall j | 0 <= j < |EarlierMissing|
      ensures EarlierMissing[j] in EngagementPatterns[j] && EarlierMissing[j] !in SaidWhatISaid
    {
      var c := EarlierMissing[j];
      assert c !in SaidWhatISaid;
      assert c in EngagementPatterns[j];
    }
  }

  /** None of the phrases of the reason text as written occurs. */
  lemma SaidMissesAsWrittenPhrases()
    ensures forall j | 0 <= j < |ReasonPatternsAsWritten| :: !Contains(SaidWhatISaid, ReasonPatternsAsWritten[j])
  {
    AsWrittenCharsAbsent();
    NoneContained(SaidWhatISaid, ReasonPatternsAsWritten, AsWrittenMissing);
  }

  /** Of the engagement phrases, only the last occurs. */
  lemma SaidHitsLastPhrase()
    ensures forall j | 0 <= j < 21 :: !Contains(SaidWhatISaid, EngagementPatterns[j])
    ensures Contains(SaidWhatISaid, EngagementPatterns[21])
  {
    EarlierCharsAbsent();
    NoneContained(SaidWhatISaid, EngagementPatterns, EarlierMissing);
    ContainsSelf(SaidWhatISaid);
    assert EngagementPatterns[21] == SaidWhatISaid;
  }

  /** An engagement rule whose phrases all miss gives the generic reason. */
  lemma GenericReason(p: Post, f: Filter, patterns: seq<string>)
    requires KindOf(f.filterType) == Some(Engagement)
    requires forall j | 0 <= j < |patterns| :: !Contains(SearchText(p), patterns[j])
    ensures ReasonWith(p, f, patterns) == "Engagement bait detected"
  {
  }

  /** An engagement rule names the first phrase that occurs. */
  lemma NamedReason(p: Post, f: Filter, patterns: seq<string>, k: nat)
    requires KindOf(f.filterType) == Some(Engagement)
    requires k < |patterns| && Contains(SearchText(p), patterns[k])
    requires forall j | 0 <= j < k :: !Contains(SearchText(p), patterns[j])
    ensures ReasonWith(p, f, patterns) == "Engagement bait: \"" + patterns[k] + "\""
  {
    var r := ReasonWith(p, f, patterns);
    var i :| 0 <= i < |patterns| && r == "Engagement bait: \"" + patterns[i] + "\""
      && Contains(SearchText(p), patterns[i])
      && forall j | 0 <= j < i :: !Contains(SearchText(p), patterns[j]);
    assert i == k;
  }

  /** A post reading "i said what i said" is caught by any engagement rule,
      yet the reason as written is the generic text because its phrase list
      lacks that phrase; the corrected reason names it. `SaidPost` is such a
      post. */
  lemma UnnamedEngagementPhrase(p: Post, f: Filter)
    requires SearchText(p) == SaidWhatISaid
    requires KindOf(f.filterType) == Some(Engagement)
    ensures MatchesFilter(p, f)
    ensures FilterReasonAsWritten(p, f) == "Engagement bait detected"
    ensures FilterReason(p, f) == "Engagement bait: \"" + SaidWhatISaid + "\""
    ensures MarkerFor([f], p) == Marker(f.name, "Engagement bait detected")
  {
    SaidMissesAsWrittenPhrases();
    SaidHitsLastPhrase();
    assert IsEngagementBait(p);
    GenericReason(p, f, ReasonPatternsAsWritten);
    NamedReason(p, f, EngagementPatterns, 21);
  }

  /* ------------------------------------------ stacked duplicate markers */

  // Not a defect: the engine never stacks markers (`Engine.ScanKeepsNoStacks`,
  // `Engine.CleanupKeepsNoStacks`). The example shows that the hypothesis of
  // `Engine.CleanupAgreesWithoutStacks` cannot be dropped.

  const Shown := PostNode(PlainPost("a", []).(processed := true, filtered := true))
  const First := MarkerNode(Marker("Spam", ""))
  const Second := MarkerNode(Marker("Bait", ""))

  /** On a page where two markers stand before one post, the cleanup looks
      only at each marker's next sibling, so the first marker, followed by a
      marker, is never compared and both stay; the reference definition
      keeps only the first. */
  lemma StackedMarkersSurvive()
    ensures !NoStacks([First, Second, Shown], false)
    ensures CleanupIndicators([First, Second, Shown]) == [First, Second, Shown]
    ensures !DistinctIds(Owned(CleanupIndicators([First, Second, Shown])))
    ensures DedupMarkers([First, Second, Shown]) == [First, Shown]
  {
    StackAsWritten();
    StackOwned();
    StackCorrected();
    var owned := Owned(CleanupIndicators([First, Second, Shown]));
    assert owned[0].1 == owned[1].1;
    assert [First, Second, Shown][1..] == [Second, Shown];
  }

  lemma ShownFacts()
    ensures TweetId(Shown.post) == "a"
    ensures NonMarkers([Shown]) == [Shown]
    ensures NonMarkers([Second, Shown]) == [Shown]
    ensures OwnerId([Second, Shown]) == Some("a")
    ensures OwnerId([Shown]) == Some("a")
  {
    assert TweetText(Shown.post) == "a";
    assert [Shown][1..] == [];
    assert [Second, Shown][1..] == [Shown];
  }

  lemma StackAsWritten()
    ensures CleanupIndicators([First, Second, Shown]) == [First, Second, Shown]
  {
    ShownFacts();
    assert [Shown][1..] == [];
    assert [Second, Shown][1..] == [Shown];
    assert [First, Second, Shown][1..] == [Second, Shown];
    assert CleanupIndicatorsFrom([Shown], {"a"}) == [Shown];
    assert CleanupIndicatorsFrom([Second, Shown], {}) == [Second, Shown];
  }

  lemma StackOwned()
    ensures Owned([First, Second, Shown]) == [(First.marker, "a"), (Second.marker, "a")]
  {
    ShownFacts();
    assert [Shown][1..] == [];
    assert [Second, Shown][1..] == [Shown];
    assert [First, Second, Shown][1..] == [Second, Shown];
    assert Owned([Shown]) == [];
    assert Owned([Second, Shown]) == [(Second.marker, "a")];
  }

  lemma StackCorrected()
    ensures DedupMarkers([First, Second, Shown]) == [First, Shown]
  {
    ShownFacts();
    assert [Shown][1..] == [];
    assert [Second, Shown][1..] == [Shown];
    assert [First, Second, Shown][1..] == [Second, Shown];
    assert DedupMarkersFrom([Shown], {"a"}) == [Shown];
    assert DedupMarkersFrom([Second, Shown], {"a"}) == [Shown];
    var seen: set<string> := {};
    assert seen + {"a"} == {"a"};
    assert DedupMarkersFrom([First, Second, Shown], seen) == [First] + DedupMarkersFrom([Second, Shown], {"a"});
  }
}

=== FILE: optional.dfy ===
/** The absent-or-present value that JavaScript expresses with `null`,
    `undefined` or a missing key. */
module Optional {

  datatype Option<+T> = None | Some(value: T) {

    /** The carried value, or `default` when there is none (JavaScript's
        `x || default` for values that are never falsy). */
    function GetOr(default: T): (r: T)
      ensures Some? ==> r == value
      ensures None? ==> r == default
    {
      match this
      case Some(v) => v
      case None => default
    }
  }

  /** Index of the first present value, scanning left to right. */
  function FirstSome<T>(xs: seq<Option<T>>): (r: Option<nat>)
    ensures r.Some? ==> r.value < |xs| && xs[r.value].Some?
    ensures r.Some? ==> forall j | 0 <= j < r.value :: xs[j].None?
    ensures r.None? ==> forall j | 0 <= j < |xs| :: xs[j].None?
    decreases |xs|
  {
    if |xs| == 0 then None
    else if xs[0].Some? then Some(0)
    else match FirstSome(xs[1..])
      case Some(i) => Some(i + 1)
      case None => None
  }
}

=== FILE: popup.dfy ===
/** The popup's rule-list manager: parsing the keyword field, adding,
    removing and toggling rules, the list shown for a rule, the update sent
    to the content script, and the status line. */
module Popup {
  import opened Optional
  import opened Strings
  import opened Seqs
  import opened Filters
  import opened Classifier
  import opened Engine

  /* ------------------------------------------------------------ keywords */

  /** Every piece trimmed. */
  function TrimAll(parts: seq<string>): (r: seq<string>)
    ensures |r| == |parts|
    ensures forall i | 0 <= i < |parts| :: r[i] == Trim(parts[i])
  {
    seq(|parts|, i requires 0 <= i < |parts| => Trim(parts[i]))
  }

  /** `parts.filter(k => k)`: the non-empty pieces, in order. */
  function DropEmpty(parts: seq<string>): (r: seq<string>)
    ensures forall i | 0 <= i < |r| :: |r[i]| > 0
    ensures forall k :: k in r <==> k in parts && |k| > 0
    ensures forall k :: multiset(r)[k] == if |k| > 0 then multiset(parts)[k] else 0
    ensures IsSubsequence(r, parts)
    decreases |parts|
  {
    if |parts| == 0 then []
    else
      var rest := DropEmpty(parts[1..]);
      assert [parts[0]] + parts[1..] == parts;
      if |parts[0]| > 0 then
        SubsequenceKeep(rest, parts[0], parts[1..]);
        [parts[0]] + rest
      else
        SubsequenceSkip(rest, parts[0], parts[1..]);
        rest
  }

  /** Trimming never brings in a character that was not there. */
  lemma TrimKeepsOut(s: string, c: char)
    requires c !in s
    ensures c !in Trim(s)
  {
    var a := TrimStart(s);
    var r := TrimEnd(a);
    TrimStartShape(s);
    TrimEndShape(a);
    forall i | 0 <= i < |r|
      ensures r[i] != c
    {
      assert r[i] == a[i];
      assert a[i] == s[|s| - |a| + i];
    }
  }

  /** What a trimmed piece without commas is. */
  lemma TrimmedPieces(parts: seq<string>)
    requires forall i | 0 <= i < |parts| :: ',' !in parts[i]
    ensures forall i | 0 <= i < |parts| :: IsTrimmed(TrimAll(parts)[i]) && ',' !in TrimAll(parts)[i]
  {
    forall i | 0 <= i < |parts|
      ensures IsTrimmed(Trim(parts[i])) && ',' !in Trim(parts[i])
    {
      TrimIsTrimmed(parts[i]);
      TrimKeepsOut(parts[i], ',');
    }
  }

  /** The keyword field of the add form, as `addFilter` reads it: trimmed,
      split at commas, each piece trimmed, empty pieces dropped. The keywords
      are exactly the non-empty trimmed comma-separated pieces of the field
      as typed, in order, so the first trim makes no difference. Every
      keyword is non-empty, trimmed and free of commas; a blank field gives
      no keywords, and a field without commas gives the one keyword. */
  function ParseKeywords(raw: string): (r: seq<string>)
    ensures r == DropEmpty(TrimAll(Split(raw, ',')))
    ensures forall i | 0 <= i < |r| :: |r[i]| > 0 && IsTrimmed(r[i]) && ',' !in r[i]
    ensures |Trim(raw)| == 0 ==> r == []
    ensures |Trim(raw)| > 0 && ',' !in raw ==> r == [Trim(raw)]
  {
    var t := Trim(raw);
    SplitAroundTrim(raw, ',');
    assert TrimAll(Split(raw, ',')) == TrimAll(Split(t, ','));
    if |t| == 0 then
      assert Split(t, ',') == [""];
      assert DropEmpty([""]) == [] by {
        assert [""][1..] == [];
      }
      []
    else
      var pieces := TrimAll(Split(t, ','));
      TrimmedPieces(Split(t, ','));
      if ',' !in raw then
        TrimKeepsOut(raw, ',');
        SplitNoSeparator(t, ',');
        TrimIsTrimmed(raw);
        TrimTrimmed(t);
        assert pieces == [t];
        assert DropEmpty(pieces) == [t] by {
          assert pieces[1..] == [];
        }
        DropEmpty(pieces)
      else
        DropEmpty(pieces)
  }

  /** " " before every piece. */
  function PadAll(parts: seq<string>): (r: seq<string>)
    ensures |r| == |parts|
    ensures forall i | 0 <= i < |parts| :: r[i] == " " + parts[i]
    decreases |parts|
  {
    if |parts| == 0 then []
    else
      var rest := PadAll(parts[1..]);
      var r := [" " + parts[0]] + rest;
      assert forall i | 1 <= i < |r| :: r[i] == rest[i - 1];
      r
  }

  /** A prefix of the first piece is a prefix of the whole join. */
  lemma JoinHeadPrefix(a: string, b: string, rest: seq<string>, sep: string)
    ensures Join([a + b] + rest, sep) == a + Join([b] + rest, sep)
  {
    if |rest| > 0 {
      assert ([a + b] + rest)[1..] == rest;
      assert ([b] + rest)[1..] == rest;
    }
  }

  /** Joining with ", " is joining with "," after putting a space before
      every piece but the first. */
  lemma {:induction false} JoinPadded(h: string, t: seq<string>)
    ensures Join([h] + PadAll(t), ",") == Join([h] + t, ", ")
    decreases |t|
  {
    if |t| > 0 {
      var u := " " + t[0];
      assert PadAll(t) == [u] + PadAll(t[1..]);
      JoinPadded(u, t[1..]);
      JoinHeadPrefix(" ", t[0], t[1..], ", ");
      assert [t[0]] + t[1..] == t;
      assert ([h] + PadAll(t))[1..] == PadAll(t);
      assert ([h] + t)[1..] == t;
    }
  }

  /** A join of pieces that are all non-empty starts with the first piece's
      first character and ends with the last piece's last character. */
  lemma {:induction false} JoinEnds(parts: seq<string>, sep: string)
    requires |parts| > 0
    requires forall i | 0 <= i < |parts| :: |parts[i]| > 0
    ensures var j := Join(parts, sep);
      |j| > 0 && j[0] == parts[0][0] && j[|j| - 1] == parts[|parts| - 1][|parts[|parts| - 1]| - 1]
    decreases |parts|
  {
    if |parts| > 1 {
      JoinEnds(parts[1..], sep);
    }
  }

  /** The non-empty pieces are all of them when none is empty. */
  lemma {:induction false} DropEmptyOfNonEmpty(parts: seq<string>)
    requires forall i | 0 <= i < |parts| :: |parts[i]| > 0
    ensures DropEmpty(parts) == parts
    decreases |parts|
  {
    if |parts| > 0 {
      DropEmptyOfNonEmpty(parts[1..]);
      assert [parts[0]] + parts[1..] == parts;
    }
  }

  /** The keyword list as the rule list shows it: joined with ", ". */
  function ShownKeywords(f: Filter): string {
    Join(f.keywords, ", ")
  }

  /** Reading back the list a rule shows gives the rule's keywords: for
      keywords that are non-empty, trimmed and free of commas, which is
      every list `ParseKeywords` produces, parsing is the inverse of
      joining with ", ". */
  lemma {:induction false} ParseShownKeywords(ks: seq<string>)
    requires forall i | 0 <= i < |ks| :: |ks[i]| > 0 && IsTrimmed(ks[i]) && ',' !in ks[i]
    ensures ParseKeywords(Join(ks, ", ")) == ks
  {
    var j := Join(ks, ", ");
    if |ks| == 0 {
      assert Trim(j) == "";
    } else {
      JoinEnds(ks, ", ");
      assert IsTrimmed(j);
      TrimTrimmed(j);
      var padded := [ks[0]] + PadAll(ks[1..]);
      JoinPadded(ks[0], ks[1..]);
      assert [ks[0]] + ks[1..] == ks;
      assert forall i | 0 <= i < |padded| :: ',' !in padded[i] by {
        forall i | 1 <= i < |padded|
          ensures ',' !in padded[i]
        {
          assert padded[i] == " " + ks[i];
        }
      }
      SplitJoin(padded, ',');
      assert TrimAll(padded) == ks by {
        forall i | 0 <= i < |ks|
          ensures Trim(padded[i]) == ks[i]
        {
          if i == 0 {
            TrimTrimmed(ks[0]);
          } else {
            assert padded[i] == " " + ks[i] + "";
            TrimPadded(" ", ks[i], "");
          }
        }
      }
      DropEmptyOfNonEmpty(ks);
    }
  }

  /** Parsing what a rule shows gives the same keywords again. */
  lemma ParseKeywordsStable(raw: string)
    ensures ParseKeywords(Join(ParseKeywords(raw), ", ")) == ParseKeywords(raw)
  {
    ParseShownKeywords(ParseKeywords(raw));
  }

  /* ---------------------------------------------------------- rule list */

  /** What an action leaves behind: the new rule list, the status message
      shown (if any), and whether the content script is sent an update. */
  datatype Outcome = Outcome(filters: seq<Filter>, status: Option<string>, notify: bool)

  /** The add form's fields. */
  datatype Form = Form(name: string, description: string, keywords: string, filterType: string)

  /** `addFilter`: a blank name is refused with an error message and the
      list unchanged; otherwise one enabled rule with the trimmed fields and
      the parsed keywords is appended, and the content script is updated.
      The id and creation time come from the clock and are parameters. */
  function AddFilter(filters: seq<Filter>, form: Form, id: string, createdAt: string): (r: Outcome)
    ensures |Trim(form.name)| == 0 ==>
      r == Outcome(filters, Some("Please enter a filter name"), false)
    ensures |Trim(form.name)| > 0 ==>
      && r.notify && r.status == Some("Filter added successfully!")
      && |r.filters| == |filters| + 1
      && r.filters[..|filters|] == filters
      && var f := r.filters[|filters|];
         && f.id == id && f.enabled && f.createdAt == createdAt
         && f.name == Trim(form.name) && f.description == Trim(form.description)
         && f.filterType == form.filterType
         && f.keywords == ParseKeywords(form.keywords)
  {
    var name := Trim(form.name);
    if |name| == 0 then Outcome(filters, Some("Please enter a filter name"), false)
    else
      var f := Filter(id, name, Trim(form.description), ParseKeywords(form.keywords),
                      form.filterType, true, createdAt);
      assert (filters + [f])[..|filters|] == filters;
      Outcome(filters + [f], Some("Filter added successfully!"), true)
  }

  /** `filters.filter(f => f.id !== id)`. */
  function WithoutId(filters: seq<Filter>, id: string): (r: seq<Filter>)
    ensures forall f :: f in r <==> f in filters && f.id != id
    ensures forall f :: multiset(r)[f] == if f.id != id then multiset(filters)[f] else 0
    ensures IsSubsequence(r, filters)
    decreases |filters|
  {
    if |filters| == 0 then []
    else
      var rest := WithoutId(filters[1..], id);
      assert [filters[0]] + filters[1..] == filters;
      if filters[0].id != id then
        SubsequenceKeep(rest, filters[0], filters[1..]);
        [filters[0]] + rest
      else
        SubsequenceSkip(rest, filters[0], filters[1..]);
        rest
  }

  /** `removeFilter`: every rule with the id goes, the others stay in
      order, and the content script is updated even when nothing went. */
  function RemoveFilter(filters: seq<Filter>, id: string): (r: Outcome)
    ensures forall f :: f in r.filters <==> f in filters && f.id != id
    ensures forall f :: multiset(r.filters)[f] == if f.id != id then multiset(filters)[f] else 0
    ensures IsSubsequence(r.filters, filters)
    ensures r.status == Some("Filter removed") && r.notify
  {
    Outcome(WithoutId(filters, id), Some("Filter removed"), true)
  }

  /** Removing an id no rule has changes nothing. */
  lemma {:induction false} WithoutAbsentId(filters: seq<Filter>, id: string)
    requires forall i | 0 <= i < |filters| :: filters[i].id != id
    ensures WithoutId(filters, id) == filters
    decreases |filters|
  {
    if |filters| > 0 {
      WithoutAbsentId(filters[1..], id);
      assert [filters[0]] + filters[1..] == filters;
    }
  }

  lemma {:induction false} WithoutIdAppend(a: seq<Filter>, b: seq<Filter>, id: string)
    ensures WithoutId(a + b, id) == WithoutId(a, id) + WithoutId(b, id)
    decreases |a|
  {
    if |a| > 0 {
      assert (a + b)[0] == a[0];
      assert (a + b)[1..] == a[1..] + b;
      WithoutIdAppend(a[1..], b, id);
    } else {
      assert a + b == b;
    }
  }

  /** Removing twice is removing once. */
  lemma RemoveIdempotent(filters: seq<Filter>, id: string)
    ensures RemoveFilter(RemoveFilter(filters, id).filters, id).filters == RemoveFilter(filters, id).filters
  {
    var once := WithoutId(filters, id);
    assert forall i | 0 <= i < |once| :: once[i].id != id by {
      forall i | 0 <= i < |once|
        ensures once[i].id != id
      {
        assert once[i] in once;
      }
    }
    WithoutAbsentId(once, id);
  }

  /** Removing a rule just added under a fresh id gives the list back. */
  lemma AddThenRemove(filters: seq<Filter>, form: Form, id: string, createdAt: string)
    requires forall i | 0 <= i < |filters| :: filters[i].id != id
    ensures RemoveFilter(AddFilter(filters, form, id, createdAt).filters, id).filters == filters
  {
    var added := AddFilter(filters, form, id, createdAt).filters;
    WithoutAbsentId(filters, id);
    if |Trim(form.name)| > 0 {
      var f := added[|filters|];
      assert added == filters + [f];
      WithoutIdAppend(filters, [f], id);
      assert [f][1..] == [];
    }
  }

  /** `filters.find(f => f.id === id)`, as an index. */
  function FindId(filters: seq<Filter>, id: string): (r: Option<nat>)
    ensures r.Some? ==> r.value < |filters| && filters[r.value].id == id
    ensures r.Some? ==> forall j | 0 <= j < r.value :: filters[j].id != id
    ensures r.None? ==> forall j | 0 <= j < |filters| :: filters[j].id != id
    decreases |filters|
  {
    if |filters| == 0 then None
    else if filters[0].id == id then Some(0)
    else match FindId(filters[1..], id)
      case Some(i) => Some(i + 1)
      case None => None
  }

  /** `toggleFilter`: the first rule with the id flips its enabled flag,
      the status names the new state and the content script is updated;
      for an unknown id nothing happens at all. */
  function ToggleFilter(filters: seq<Filter>, id: string): (r: Outcome)
    ensures |r.filters| == |filters|
    ensures FindId(filters, id).None? ==> r == Outcome(filters, None, false)
    ensures FindId(filters, id).Some? ==>
      var i := FindId(filters, id).value;
      && r.filters[i] == filters[i].(enabled := !filters[i].enabled)
      && (forall j | 0 <= j < |filters| && j != i :: r.filters[j] == filters[j])
      && r.notify
      && r.status == Some(if r.filters[i].enabled then "Filter enabled" else "Filter disabled")
  {
    match FindId(filters, id)
    case None => Outcome(filters, None, false)
    case Some(i) =>
      var f := filters[i].(enabled := !filters[i].enabled);
      Outcome(filters[i := f], Some(if f.enabled then "Filter enabled" else "Filter disabled"), true)
  }

  /** Toggling the same id twice gives the list back. */
  lemma ToggleTwice(filters: seq<Filter>, id: string)
    ensures ToggleFilter(ToggleFilter(filters, id).filters, id).filters == filters
  {
    var once := ToggleFilter(filters, id).filters;
    match FindId(filters, id)
    case None =>
    case Some(i) =>
      assert forall j | 0 <= j < |once| :: once[j].id == filters[j].id;
      assert FindId(once, id) == Some(i) by {
        FindIdSameIds(filters, once, id);
      }
  }

  /** `FindId` only looks at ids. */
  lemma {:induction false} FindIdSameIds(a: seq<Filter>, b: seq<Filter>, id: string)
    requires |a| == |b|
    requires forall j | 0 <= j < |a| :: a[j].id == b[j].id
    ensures FindId(a, id) == FindId(b, id)
    decreases |a|
  {
    if |a| > 0 {
      FindIdSameIds(a[1..], b[1..], id);
    }
  }

  /* --------------------------------------------------- content script */

  /** `updateContentScript`: the enabled rules go to the active tab, but only
      when its address mentions the site; a missing tab gets nothing. */
  function ContentScriptMessage(filters: seq<Filter>, tabUrl: Option<string>): (r: Option<Update>)
    ensures r.Some? <==> tabUrl.Some? && (Contains(tabUrl.value, "twitter.com") || Contains(tabUrl.value, "x.com"))
    ensures r.Some? ==> r.value.filters == EnabledFilters(filters) && r.value.exceptions.None?
  {
    match tabUrl
    case Some(url) =>
      if Contains(url, "twitter.com") || Contains(url, "x.com")
      then Some(Update(EnabledFilters(filters), None))
      else None
    case None => None
  }

  /** The popup's answer to `getFilters`: the same enabled rules an update
      carries. */
  function GetFiltersResponse(filters: seq<Filter>): (r: seq<Filter>)
    ensures forall f :: f in r <==> f in filters && f.enabled
    ensures forall f :: multiset(r)[f] == if f.enabled then multiset(filters)[f] else 0
    ensures IsSubsequence(r, filters)
  {
    EnabledFilters(filters)
  }

  /** After the content script handles an update from the popup, it runs
      exactly the enabled rules, all of them enabled, reports as many active
      rules as the popup counts, and has its exemptions reset to the
      defaults, because the popup never sends any. */
  lemma UpdateFromPopup(st: State, filters: seq<Filter>, tabUrl: Option<string>)
    requires ContentScriptMessage(filters, tabUrl).Some?
    ensures var r := HandleUpdate(st, ContentScriptMessage(filters, tabUrl).value);
      && r.filters == GetFiltersResponse(filters)
      && (forall i | 0 <= i < |r.filters| :: r.filters[i].enabled)
      && GetStats(r).activeFilters == ActiveCount(filters)
      && r.exceptions == DefaultExceptions
  {
    var r := HandleUpdate(st, ContentScriptMessage(filters, tabUrl).value);
    assert forall i | 0 <= i < |r.filters| :: r.filters[i] in r.filters;
  }

  /* ---------------------------------------------------------- status */

  /** How many rules are enabled. */
  function ActiveCount(filters: seq<Filter>): (n: nat)
    ensures n <= |filters|
  {
    |EnabledFilters(filters)|
  }

  /** `updateStatus`: a greeting for an empty list, otherwise how many of
      the rules are enabled. */
  function StatusText(filters: seq<Filter>): (r: string)
    ensures |filters| == 0 ==> r == "Ready to filter your Twitter feed!"
  {
    if |filters| == 0 then "Ready to filter your Twitter feed!"
    else Decimal(ActiveCount(filters)) + " of " + Decimal(|filters|) + " filters active"
  }

  /** A number written in decimal has no spaces. */
  lemma DecimalHasNoSpace(n: nat)
    ensures ' ' !in Decimal(n)
  {
    var d := Decimal(n);
    assert forall i | 0 <= i < |d| :: d[i] != ' ';
  }

  /** The status line is its five words joined with spaces. */
  lemma StatusWords(a: string, b: string)
    ensures Join([a, "of", b, "filters", "active"], " ") == a + " of " + b + " filters active"
  {
    var words := [a, "of", b, "filters", "active"];
    assert words[1..] == ["of", b, "filters", "active"];
    assert words[1..][1..] == [b, "filters", "active"];
    assert words[1..][1..][1..] == ["filters", "active"];
    assert words[1..][1..][1..][1..] == ["active"];
    assert Join(["filters", "active"], " ") == "filters active";
    assert Join([b, "filters", "active"], " ") == b + " filters active";
    assert Join(["of", b, "filters", "active"], " ") == "of " + b + " filters active";
  }

  /** The status line of a non-empty list reads back, word by word, as the
      number of enabled rules, "of", the number of rules, "filters",
      "active"; both numbers are written without leading zeros, and the
      first never exceeds the second. */
  lemma StatusTextReadsBack(filters: seq<Filter>)
    requires |filters| > 0
    ensures var words := Split(StatusText(filters), ' ');
      && |words| == 5
      && words[1] == "of" && words[3] == "filters" && words[4] == "active"
      && (forall k | 0 <= k < |words[0]| :: '0' <= words[0][k] <= '9')
      && (forall k | 0 <= k < |words[2]| :: '0' <= words[2][k] <= '9')
      && |words[0]| >= 1 && (words[0][0] == '0' ==> words[0] == "0")
      && |words[2]| >= 1 && (words[2][0] == '0' ==> words[2] == "0")
      && DecimalValue(words[0]) == ActiveCount(filters)
      && DecimalValue(words[2]) == |filters|
      && DecimalValue(words[0]) <= DecimalValue(words[2])
  {
    var a := Decimal(ActiveCount(filters));
    var b := Decimal(|filters|);
    var words := [a, "of", b, "filters", "active"];
    DecimalHasNoSpace(ActiveCount(filters));
    DecimalHasNoSpace(|filters|);
    StatusWords(a, b);
    SplitJoin(words, ' ');
    DecimalRoundTrip(ActiveCount(filters));
    DecimalRoundTrip(|filters|);
  }
}

=== FILE: posts.dfy ===
/** One rendered feed post, reduced to what the classifier reads from it, and
    the extractors that work on it: the post's own text, its author handle and
    its fingerprint (the tweet id). */
module Posts {
  import opened Optional
  import opened Strings

  /** What the content script can see of one `[data-testid="tweet"]` element.
      Every sequence is in document order. */
  datatype Post = Post(
    // textContent of the `[data-testid="tweetText"]` region, when there is one
    tweetText: Option<string>,
    // textContent of a copy with the social-context, reply, retweet, like,
    // share and button subtrees removed
    fullText: string,
    // textContent of the whole element
    textContent: string,
    // href attribute of every anchor that has one
    hrefs: seq<string>,
    // href of the first anchor inside the `User-Name` region, if it has one
    userNameHref: Option<string>,
    // href of the first anchor inside the `User-Names` region, if it has one
    userNamesHref: Option<string>,
    // textContent of every span
    spanTexts: seq<string>,
    // a video player, `video` element or video component is present
    hasVideo: bool,
    // a `socialContext` region is present
    hasSocialContext: bool,
    // an element whose aria-label contains "Retweet" is present
    hasRetweetLabel: bool,
    // a verified icon, or an aria-label containing "Verified account" or an
    // svg whose aria-label contains "Verified", is present
    hasVerifiedBadge: bool,
    // outcome of the ad checks that read indicator regions and the enclosing
    // cell: promoted indicator, promoted aria-label, social-context text
    promotedContext: bool,
    // the element's `data-promoted` attribute is "true"
    dataPromoted: bool,
    // outcome of the followed-author heuristic
    followedHint: bool,
    // the `data-filter-processed` attribute is "true"
    processed: bool,
    // the element carries the `filtered-tweet` class
    filtered: bool)

  /** `getTweetText`: the dedicated text region when the markup has one,
      otherwise the text of everything but the interface chrome. */
  function TweetText(p: Post): (r: string)
    ensures p.tweetText.Some? ==> r == p.tweetText.value
    ensures p.tweetText.None? ==> r == p.fullText
  {
    p.tweetText.GetOr(p.fullText)
  }

  /** Index of the first href that contains `part`, as
      `querySelector('a[href*="part"]')` finds it. */
  function FirstHrefIndex(hrefs: seq<string>, part: string): (r: Option<nat>)
    ensures r.Some? ==> r.value < |hrefs| && Contains(hrefs[r.value], part)
    ensures r.Some? ==> forall j | 0 <= j < r.value :: !Contains(hrefs[j], part)
    ensures r.None? ==> forall j | 0 <= j < |hrefs| :: !Contains(hrefs[j], part)
    decreases |hrefs|
  {
    if |hrefs| == 0 then None
    else if Contains(hrefs[0], part) then Some(0)
    else match FirstHrefIndex(hrefs[1..], part)
      case Some(i) => Some(i + 1)
      case None => None
  }

  /** The href of the first anchor whose href contains `part`. */
  function FirstHref(hrefs: seq<string>, part: string): Option<string> {
    match FirstHrefIndex(hrefs, part)
    case Some(i) => Some(hrefs[i])
    case None => None
  }

  /* ------------------------------------------------------------ tweet id */

  /** `getTweetId`: the first status permalink when there is one, otherwise
      the first 100 characters of the post's text. */
  function TweetId(p: Post): (r: string)
    ensures FirstHref(p.hrefs, "/status/").Some? ==>
      r == FirstHref(p.hrefs, "/status/").value && Contains(r, "/status/")
    ensures FirstHref(p.hrefs, "/status/").None? ==>
      && StartsWith(TweetText(p), r)
      && |r| == if |TweetText(p)| < 100 then |TweetText(p)| else 100
  {
    match FirstHref(p.hrefs, "/status/")
    case Some(h) => h
    case None =>
      var text := TweetText(p);
      if |text| < 100 then text else text[..100]
  }

  /* ------------------------------------------------------------ username */

  /** The name in a profile link: the href matches `^/[^/]+$` and the name is
      not the reserved "i". */
  function ProfileName(href: string): (r: Option<string>)
    ensures r.Some? ==> href == "/" + r.value && |r.value| > 0 && '/' !in r.value && r.value != "i"
  {
    if |href| > 1 && href[0] == '/' && '/' !in href[1..] && href[1..] != "i" then
      assert href == "/" + href[1..];
      Some(href[1..])
    else None
  }

  /** Every link of the shape "/name" with an admissible name yields that
      name, so `ProfileName` recognises exactly those links. */
  lemma ProfileNameOfLink(name: string)
    requires |name| > 0 && '/' !in name && name != "i"
    ensures ProfileName("/" + name) == Some(name)
  {
    assert ("/" + name)[1..] == name;
  }

  /** A handle-shaped text: it starts with "@", is longer than the "@"
      alone, and contains no space. */
  predicate IsHandle(t: string) {
    StartsWith(t, "@") && |t| > 1 && ' ' !in t
  }

  /** A span's trimmed text, when that looks like a handle. */
  function SpanHandle(text: string): (r: Option<string>)
    ensures r.Some? ==> r.value == Trim(text)
    ensures r.Some? <==> IsHandle(Trim(text))
  {
    var t := Trim(text);
    if IsHandle(t) then Some(t) else None
  }

  /** The name behind an anchor, when the anchor exists, has an href, and the
      href is a profile link. */
  function LinkName(link: Option<string>): (r: Option<string>)
    ensures r.Some? ==> link.Some? && ProfileName(link.value) == r
    ensures link.Some? && ProfileName(link.value).Some? ==> r.Some?
  {
    match link
    case Some(href) => ProfileName(href)
    case None => None
  }

  /** The names behind the three anchors `getTweetUsername` asks for, in its
      order: the first anchor whose href contains "/", then the first anchor
      of each user-name region. */
  function LinkNames(p: Post): (r: seq<Option<string>>)
    ensures |r| == 3
  {
    [LinkName(FirstHref(p.hrefs, "/")), LinkName(p.userNameHref), LinkName(p.userNamesHref)]
  }

  /** The handle behind every span, in document order. */
  function SpanHandles(spans: seq<string>): (r: seq<Option<string>>)
    ensures |r| == |spans|
    ensures forall j | 0 <= j < |spans| :: r[j] == SpanHandle(spans[j])
  {
    seq(|spans|, j requires 0 <= j < |spans| => SpanHandle(spans[j]))
  }

  /** `getTweetUsername`: "@" and the name of the first candidate anchor that
      is a profile link; failing that, the first handle-shaped span text;
      failing that, nothing. */
  function Username(p: Post): (r: Option<string>)
    ensures r.Some? ==> StartsWith(r.value, "@") && |r.value| > 1
    ensures r.Some? ==>
      || (exists i | 0 <= i < 3 :: LinkNames(p)[i].Some? && r.value == "@" + LinkNames(p)[i].value)
      || (exists j | 0 <= j < |p.spanTexts| :: r.value == Trim(p.spanTexts[j]) && IsHandle(r.value))
    ensures r.None? <==>
      && (forall i | 0 <= i < 3 :: LinkNames(p)[i].None?)
      && (forall j | 0 <= j < |p.spanTexts| :: SpanHandle(p.spanTexts[j]).None?)
  {
    var names := LinkNames(p);
    match FirstSome(names)
    case Some(i) =>
      var name := names[i].value;
      assert ("@" + name)[0] == '@' && ("@" + name)[..1] == "@";
      Some("@" + name)
    case None =>
      var handles := SpanHandles(p.spanTexts);
      match FirstSome(handles)
      case Some(j) => handles[j]
      case None => None
  }
}

=== FILE: seqs.dfy ===
/** Order-keeping relations between sequences, used to say that filtering a
    list (JavaScript's `Array.prototype.filter`) keeps the survivors in their
    original order. */
module Seqs {
  import opened Optional

  /** Index of the first element that passes `test`, as a loop that returns
      at the first hit finds it. */
  function FirstWhere<T>(xs: seq<T>, test: T -> bool): (r: Option<nat>)
    ensures r.Some? ==> r.value < |xs| && test(xs[r.value])
    ensures r.Some? ==> forall j | 0 <= j < r.value :: !test(xs[j])
    ensures r.None? ==> forall j | 0 <= j < |xs| :: !test(xs[j])
    decreases |xs|
  {
    if |xs| == 0 then None
    else if test(xs[0]) then Some(0)
    else match FirstWhere(xs[1..], test)
      case Some(i) => Some(i + 1)
      case None => None
  }

  /** `a` is `b` with some elements left out, the rest in the same order. */
  predicate IsSubsequence<T(==)>(a: seq<T>, b: seq<T>)
    decreases |b|
  {
    || |a| == 0
    || (|b| > 0 && ((a[0] == b[0] && IsSubsequence(a[1..], b[1..])) || IsSubsequence(a, b[1..])))
  }

  /** Dropping the head of the longer sequence keeps a subsequence a subsequence. */
  lemma SubsequenceSkip<T>(a: seq<T>, x: T, b: seq<T>)
    requires IsSubsequence(a, b)
    ensures IsSubsequence(a, [x] + b)
  {
    assert ([x] + b)[1..] == b;
  }

  /** Taking the same head on both sides keeps a subsequence a subsequence. */
  lemma SubsequenceKeep<T>(a: seq<T>, x: T, b: seq<T>)
    requires IsSubsequence(a, b)
    ensures IsSubsequence([x] + a, [x] + b)
  {
    assert ([x] + a)[1..] == a;
    assert ([x] + b)[1..] == b;
  }

  /** Every sequence is a subsequence of itself. */
  lemma {:induction false} SubsequenceRefl<T>(a: seq<T>)
    ensures IsSubsequence(a, a)
    decreases |a|
  {
    if |a| > 0 {
      SubsequenceRefl(a[1..]);
    }
  }

  /** Concatenation is associative. */
  lemma ConcatAssoc<T>(a: seq<T>, b: seq<T>, c: seq<T>)
    ensures a + (b + c) == (a + b) + c
  {
  }
}

=== FILE: strings.dfy ===
/** The JavaScript string operations the filter relies on, over `seq<char>`:
    `toLowerCase`, `includes`, `startsWith`, `trim`, `split`, `join`,
    `substring` and number-to-string conversion. */
module Strings {

  /* ---------------------------------------------------------------- case */

  predicate IsUpper(c: char) {
    'A' <= c <= 'Z'
  }

  /** `toLowerCase` on one character (ASCII letters only). */
  function LowerChar(c: char): (r: char)
    ensures !IsUpper(r)
    ensures IsUpper(c) ==> r as int == c as int + 32
    ensures !IsUpper(c) ==> r == c
  {
    if IsUpper(c) then (c as int + 32) as char else c
  }

  /** `s.toLowerCase()`. */
  function Lower(s: string): (r: string)
    ensures |r| == |s|
    ensures forall i | 0 <= i < |s| :: r[i] == LowerChar(s[i])
  {
    seq(|s|, i requires 0 <= i < |s| => LowerChar(s[i]))
  }

  predicate IsLower(s: string) {
    forall i | 0 <= i < |s| :: !IsUpper(s[i])
  }

  /** Lower-casing yields lower-case text and is idempotent, so comparing
      lower-cased values is insensitive to lower-casing either side again. */
  lemma LowerIsLower(s: string)
    ensures IsLower(Lower(s))
    ensures Lower(Lower(s)) == Lower(s)
  {
  }

  /** Lower-case text is left alone by `toLowerCase`. */
  lemma LowerOfLower(s: string)
    requires IsLower(s)
    ensures Lower(s) == s
  {
  }

  /** `a.toLowerCase() === b.toLowerCase()`. */
  predicate EqualsIgnoreCase(a: string, b: string) {
    Lower(a) == Lower(b)
  }

  /* --------------------------------------------------- prefix, substring */

  /** `s.startsWith(p)`. */
  predicate StartsWith(s: string, p: string) {
    |p| <= |s| && s[..|p|] == p
  }

  /** `s.endsWith(p)`. */
  predicate EndsWith(s: string, p: string) {
    |p| <= |s| && s[|s| - |p|..] == p
  }

  /** `t` occurs in `s` starting at index `i`. */
  predicate OccursAt(s: string, t: string, i: int) {
    0 <= i && i + |t| <= |s| && s[i..i + |t|] == t
  }

  /** `s.includes(t)`, scanning left to right. */
  predicate Contains(s: string, t: string)
    decreases |s|
  {
    StartsWith(s, t) || (|s| > 0 && Contains(s[1..], t))
  }

  /** The scanning definition of `includes` agrees with the positional one. */
  lemma {:induction false} ContainsIffOccurs(s: string, t: string)
    ensures Contains(s, t) <==> exists i :: OccursAt(s, t, i)
    decreases |s|
  {
    if Contains(s, t) {
      if StartsWith(s, t) {
        assert OccursAt(s, t, 0);
      } else {
        ContainsIffOccurs(s[1..], t);
        var i :| OccursAt(s[1..], t, i);
        assert s[1..][i..i + |t|] == s[i + 1..i + 1 + |t|];
        assert OccursAt(s, t, i + 1);
      }
    }
    if exists i :: OccursAt(s, t, i) {
      var i :| OccursAt(s, t, i);
      if i > 0 {
        assert s[1..][i - 1..i - 1 + |t|] == s[i..i + |t|];
        assert OccursAt(s[1..], t, i - 1);
        ContainsIffOccurs(s[1..], t);
      } else {
        assert StartsWith(s, t);
      }
    }
  }

  /** Every string includes the empty string. */
  lemma ContainsEmpty(s: string)
    ensures Contains(s, "")
  {
    assert StartsWith(s, "");
  }

  /** A string includes itself. */
  lemma ContainsSelf(s: string)
    ensures Contains(s, s)
  {
    assert StartsWith(s, s);
  }

  /** An occurrence of `t` inside an occurrence of `u` is an occurrence in `s`. */
  lemma OccursTrans(s: string, u: string, t: string, i: int, j: int)
    requires OccursAt(s, u, i) && OccursAt(u, t, j)
    ensures OccursAt(s, t, i + j)
  {
    forall k | 0 <= k < |t|
      ensures s[i + j + k] == t[k]
    {
      assert u[j + k] == t[k];
      assert s[i..i + |u|][j + k] == s[i + j + k];
    }
    assert s[i + j..i + j + |t|] == t;
  }

  /** `includes` is transitive: what a substring contains, the string contains. */
  lemma ContainsTrans(s: string, u: string, t: string)
    requires Contains(s, u) && Contains(u, t)
    ensures Contains(s, t)
  {
    ContainsIffOccurs(s, u);
    ContainsIffOccurs(u, t);
    var i :| OccursAt(s, u, i);
    var j :| OccursAt(u, t, j);
    OccursTrans(s, u, t, i, j);
    ContainsIffOccurs(s, t);
  }

  /** A string includes each of its suffixes. */
  lemma ContainsSuffix(s: string, k: nat)
    requires k <= |s|
    ensures Contains(s, s[k..])
  {
    assert s[k..k + |s[k..]|] == s[k..];
    assert OccursAt(s, s[k..], k);
    ContainsIffOccurs(s, s[k..]);
  }

  /* ---------------------------------------------------------------- trim */

  /** The ECMAScript WhiteSpace and LineTerminator code points, which is what
      `String.prototype.trim` removes from both ends. */
  predicate IsSpace(c: char) {
    || c == '\t' || c == '\n' || c == '\U{B}' || c == '\U{C}' || c == '\r'
    || c == ' ' || c == '\U{A0}' || c == '\U{1680}'
    || ('\U{2000}' <= c <= '\U{200A}')
    || c == '\U{2028}' || c == '\U{2029}' || c == '\U{202F}' || c == '\U{205F}'
    || c == '\U{3000}' || c == '\U{FEFF}'
  }

  predicate AllSpace(s: string) {
    forall i | 0 <= i < |s| :: IsSpace(s[i])
  }

  /** Neither end of `s` is white space. */
  predicate IsTrimmed(s: string) {
    |s| == 0 || (!IsSpace(s[0]) && !IsSpace(s[|s| - 1]))
  }

  /** `s` without its leading white space. */
  function TrimStart(s: string): (r: string)
    ensures |r| <= |s|
    decreases |s|
  {
    if |s| > 0 && IsSpace(s[0]) then TrimStart(s[1..]) else s
  }

  /** `TrimStart` drops a white-space prefix and stops at the first other
      character. */
  lemma {:induction false} TrimStartShape(s: string)
    ensures var r := TrimStart(s);
      && r == s[|s| - |r|..]
      && AllSpace(s[..|s| - |r|])
      && (|r| == 0 || !IsSpace(r[0]))
    decreases |s|
  {
    if |s| > 0 && IsSpace(s[0]) {
      TrimStartShape(s[1..]);
    }
  }

  /** `s` without its trailing white space. */
  function TrimEnd(s: string): (r: string)
    ensures |r| <= |s|
    decreases |s|
  {
    if |s| > 0 && IsSpace(s[|s| - 1]) then TrimEnd(s[..|s| - 1]) else s
  }

  /** `TrimEnd` drops a white-space suffix and stops at the last other
      character. */
  lemma {:induction false} TrimEndShape(s: string)
    ensures var r := TrimEnd(s);
      && r == s[..|r|]
      && AllSpace(s[|r|..])
      && (|r| == 0 || !IsSpace(r[|r| - 1]))
    decreases |s|
  {
    if |s| > 0 && IsSpace(s[|s| - 1]) {
      TrimEndShape(s[..|s| - 1]);
    }
  }

  /** `s.trim()`. */
  function Trim(s: string): (r: string)
    ensures |r| <= |s|
  {
    TrimEnd(TrimStart(s))
  }

  /** `trim` leaves neither end white. */
  lemma TrimIsTrimmed(s: string)
    ensures IsTrimmed(Trim(s))
  {
    TrimStartShape(s);
    TrimEndShape(TrimStart(s));
    var a := TrimStart(s);
    var r := TrimEnd(a);
    if |r| > 0 {
      assert r[0] == a[0];
    }
  }

  /** Leading white space before a non-space start is what `TrimStart` drops. */
  lemma {:induction false} TrimStartPadded(a: string, u: string)
    requires AllSpace(a)
    requires |u| == 0 || !IsSpace(u[0])
    ensures TrimStart(a + u) == u
    decreases |a|
  {
    if |a| == 0 {
      assert a + u == u;
    } else {
      assert (a + u)[0] == a[0];
      assert (a + u)[1..] == a[1..] + u;
      TrimStartPadded(a[1..], u);
    }
  }

  /** Trailing white space after a non-space end is what `TrimEnd` drops. */
  lemma {:induction false} TrimEndPadded(u: string, b: string)
    requires AllSpace(b)
    requires |u| == 0 || !IsSpace(u[|u| - 1])
    ensures TrimEnd(u + b) == u
    decreases |b|
  {
    if |b| == 0 {
      assert u + b == u;
    } else {
      assert (u + b)[|u + b| - 1] == b[|b| - 1];
      assert (u + b)[..|u + b| - 1] == u + b[..|b| - 1];
      TrimEndPadded(u, b[..|b| - 1]);
    }
  }

  /** `trim` strips exactly the white space padding around trimmed text. */
  lemma TrimPadded(a: string, t: string, b: string)
    requires AllSpace(a) && AllSpace(b) && IsTrimmed(t)
    ensures Trim(a + t + b) == t
  {
    if |t| > 0 {
      assert a + t + b == a + (t + b);
      assert (t + b)[0] == t[0];
      TrimStartPadded(a, t + b);
      TrimEndPadded(t, b);
    } else {
      assert a + t + b == (a + b) + "";
      TrimStartPadded(a + b, "");
    }
  }

  /** `trim` leaves trimmed text alone, so it is idempotent. */
  lemma TrimTrimmed(t: string)
    requires IsTrimmed(t)
    ensures Trim(t) == t
  {
    TrimPadded("", t, "");
    assert "" + t + "" == t;
  }

  /** `s` is the white space `trim` drops in front, then `Trim(s)`, then
      the white space it drops behind. */
  lemma TrimDecompose(s: string)
    ensures var i := |s| - |TrimStart(s)|;
      && i + |Trim(s)| <= |s|
      && s[i..i + |Trim(s)|] == Trim(s)
      && AllSpace(s[..i]) && AllSpace(s[i + |Trim(s)|..])
  {
    var r := TrimStart(s);
    var t := Trim(s);
    var i := |s| - |r|;
    TrimStartShape(s);
    TrimEndShape(r);
    assert s[i..i + |t|] == r[..|t|];
    assert s[i + |t|..] == r[|t|..];
  }

  /** White space in front of the text makes no difference to `trim`. */
  lemma TrimSpacePrefix(a: string, x: string)
    requires AllSpace(a)
    ensures Trim(a + x) == Trim(x)
  {
    TrimDecompose(x);
    TrimIsTrimmed(x);
    var i := |x| - |TrimStart(x)|;
    var j := i + |Trim(x)|;
    assert x == x[..i] + x[i..j] + x[j..];
    assert a + x == (a + x[..i]) + Trim(x) + x[j..];
    TrimPadded(a + x[..i], Trim(x), x[j..]);
  }

  /** White space behind the text makes no difference to `trim`. */
  lemma TrimSpaceSuffix(x: string, b: string)
    requires AllSpace(b)
    ensures Trim(x + b) == Trim(x)
  {
    TrimDecompose(x);
    TrimIsTrimmed(x);
    var i := |x| - |TrimStart(x)|;
    var j := i + |Trim(x)|;
    assert x == x[..i] + x[i..j] + x[j..];
    assert x + b == x[..i] + Trim(x) + (x[j..] + b);
    TrimPadded(x[..i], Trim(x), x[j..] + b);
  }

  /** Lower-casing neither makes nor unmakes white space. */
  lemma LowerKeepsSpace(c: char)
    ensures IsSpace(LowerChar(c)) <==> IsSpace(c)
  {
  }

  lemma {:induction false} TrimStartLower(s: string)
    ensures TrimStart(Lower(s)) == Lower(TrimStart(s))
    decreases |s|
  {
    if |s| > 0 {
      LowerKeepsSpace(s[0]);
      assert Lower(s)[1..] == Lower(s[1..]);
      TrimStartLower(s[1..]);
    }
  }

  lemma {:induction false} TrimEndLower(s: string)
    ensures TrimEnd(Lower(s)) == Lower(TrimEnd(s))
    decreases |s|
  {
    if |s| > 0 {
      LowerKeepsSpace(s[|s| - 1]);
      assert Lower(s)[..|s| - 1] == Lower(s[..|s| - 1]);
      TrimEndLower(s[..|s| - 1]);
    }
  }

  /** Trimming and lower-casing commute: `s.toLowerCase().trim()` is
      `s.trim().toLowerCase()`. */
  lemma TrimLower(s: string)
    ensures Trim(Lower(s)) == Lower(Trim(s))
  {
    TrimStartLower(s);
    TrimEndLower(TrimStart(s));
  }

  /* ---------------------------------------------------------- split/join */

  /** `parts.join(sep)`. */
  function Join(parts: seq<string>, sep: string): (r: string)
    decreases |parts|
  {
    if |parts| == 0 then ""
    else if |parts| == 1 then parts[0]
    else parts[0] + sep + Join(parts[1..], sep)
  }

  /** `s.split(c)` for a one-character separator: the pieces between the
      separators, always at least one, none containing the separator, and
      joining them back with the separator gives `s` again. */
  function Split(s: string, c: char): (r: seq<string>)
    ensures |r| >= 1
    ensures forall k | 0 <= k < |r| :: c !in r[k]
    ensures Join(r, [c]) == s
    decreases |s|
  {
    if |s| == 0 then [""]
    else if s[0] == c then
      var rest := Split(s[1..], c);
      assert [c] + Join(rest, [c]) == s;
      [""] + rest
    else
      var rest := Split(s[1..], c);
      var r := [[s[0]] + rest[0]] + rest[1..];
      assert r[1..] == rest[1..];
      r
  }

  /** Splitting text that starts with a separator-free piece followed by the
      separator yields that piece first. */
  lemma {:induction false} SplitAfterPiece(a: string, c: char, b: string)
    requires c !in a
    ensures Split(a + [c] + b, c) == [a] + Split(b, c)
    decreases |a|
  {
    if |a| == 0 {
      assert a + [c] + b == [c] + b;
      assert ([c] + b)[1..] == b;
    } else {
      assert (a + [c] + b)[1..] == a[1..] + [c] + b;
      SplitAfterPiece(a[1..], c, b);
      assert [a[0]] + a[1..] == a;
    }
  }

  /** `split` undoes `join` when no piece contains the separator. */
  lemma {:induction false} SplitJoin(parts: seq<string>, c: char)
    requires |parts| >= 1
    requires forall k | 0 <= k < |parts| :: c !in parts[k]
    ensures Split(Join(parts, [c]), c) == parts
    decreases |parts|
  {
    if |parts| == 1 {
      SplitNoSeparator(parts[0], c);
    } else {
      SplitJoin(parts[1..], c);
      SplitAfterPiece(parts[0], c, Join(parts[1..], [c]));
      assert [parts[0]] + parts[1..] == parts;
    }
  }

  /** Text without the separator splits into itself alone. */
  lemma {:induction false} SplitNoSeparator(s: string, c: char)
    requires c !in s
    ensures Split(s, c) == [s]
    decreases |s|
  {
    if |s| > 0 {
      SplitNoSeparator(s[1..], c);
      assert [s[0]] + s[1..] == s;
    }
  }

  /** Text put in front of the first piece comes first in the join. */
  lemma JoinPrefixFirst(parts: seq<string>, a: string, sep: string)
    requires |parts| >= 1
    ensures Join(parts[0 := a + parts[0]], sep) == a + Join(parts, sep)
  {
    if |parts| > 1 {
      assert parts[0 := a + parts[0]][1..] == parts[1..];
    }
  }

  /** Text put behind the last piece comes last in the join. */
  lemma {:induction false} JoinSuffixLast(parts: seq<string>, b: string, sep: string)
    requires |parts| >= 1
    ensures Join(parts[|parts| - 1 := parts[|parts| - 1] + b], sep) == Join(parts, sep) + b
    decreases |parts|
  {
    var q := parts[|parts| - 1 := parts[|parts| - 1] + b];
    if |parts| > 1 {
      JoinSuffixLast(parts[1..], b, sep);
      assert q[1..] == parts[1..][|parts| - 2 := parts[|parts| - 1] + b];
      assert q[0] == parts[0];
    }
  }

  /** Splitting at a separator that is not white space, the pieces of `s`
      and of `Trim(s)` agree once each is trimmed: the white space `trim`
      drops only pads the first and the last piece. */
  lemma SplitAroundTrim(s: string, c: char)
    requires !IsSpace(c)
    ensures |Split(s, c)| == |Split(Trim(s), c)|
    ensures forall k | 0 <= k < |Split(s, c)| :: Trim(Split(s, c)[k]) == Trim(Split(Trim(s), c)[k])
  {
    var t := Trim(s);
    TrimDecompose(s);
    var i := |s| - |TrimStart(s)|;
    var pre, post := s[..i], s[i + |t|..];
    assert s == pre + t + post;
    var ps := Split(t, c);
    var n := |ps|;
    var q1 := ps[0 := pre + ps[0]];
    var qs := q1[n - 1 := q1[n - 1] + post];
    JoinPrefixFirst(ps, pre, [c]);
    JoinSuffixLast(q1, post, [c]);
    assert Join(qs, [c]) == s;
    assert c !in pre && c !in post by {
      assert forall k | 0 <= k < |pre| :: IsSpace(pre[k]);
      assert forall k | 0 <= k < |post| :: IsSpace(post[k]);
    }
    forall k | 0 <= k < n
      ensures c !in qs[k]
    {
      assert c !in ps[k];
    }
    SplitJoin(qs, c);
    forall k | 0 <= k < n
      ensures Trim(qs[k]) == Trim(ps[k])
    {
      if k == n - 1 {
        TrimSpaceSuffix(q1[k], post);
      }
      if k == 0 {
        TrimSpacePrefix(pre, ps[0]);
      }
    }
  }

  /* ------------------------------------------------------------- numbers */

  function DigitChar(d: nat): (r: char)
    requires d < 10
    ensures '0' <= r <= '9'
  {
    ('0' as int + d) as char
  }

  /** The decimal numeral JavaScript's template literals produce for `n`. */
  function Decimal(n: nat): (r: string)
    ensures |r| >= 1
    ensures forall i | 0 <= i < |r| :: '0' <= r[i] <= '9'
    ensures r[0] == '0' ==> n == 0
    ensures r[0] == '0' ==> r == "0"
    decreases n
  {
    if n < 10 then [DigitChar(n)] else Decimal(n / 10) + [DigitChar(n % 10)]
  }

  /** The value of a string of decimal digits. */
  function DecimalValue(s: string): nat
    requires forall i | 0 <= i < |s| :: '0' <= s[i] <= '9'
    decreases |s|
  {
    if |s| == 0 then 0
    else 10 * DecimalValue(s[..|s| - 1]) + (s[|s| - 1] as int - '0' as int)
  }

  /** Reading a numeral back gives the number it was printed from. */
  lemma {:induction false} DecimalRoundTrip(n: nat)
    ensures DecimalValue(Decimal(n)) == n
    decreases n
  {
    if n >= 10 {
      DecimalRoundTrip(n / 10);
      var s := Decimal(n / 10) + [DigitChar(n % 10)];
      assert s[..|s| - 1] == Decimal(n / 10);
    }
  }
}
